=== FILE: README.md ===
# ALEX NOVA promo site — Dafny model of its decision logic

The site is a promotional page for a music producer, plus an admin panel. Almost every
operation is a call to a hosted database, an auth provider or a serverless function. This
project models the logic that sits between those calls, as pure functions over immutable
datatypes. Each remote call becomes an *outcome parameter*: the rows or error a query
returned, what an insert or update reported, or what the auth provider answered.

The modelled pieces are:

- **Contact function** (`ContactFunction`). The serverless handler for contact
  submissions:
  - answers CORS preflight requests and rejects other non-POST methods;
  - checks that all four fields are present and that the email matches
    `^[^\s@]+@[^\s@]+\.[^\s@]+$`;
  - stores the trimmed or lower-cased row and maps the insert's outcome to a reply.
- **Auto-confirm function** (`AutoConfirmFunction`). The serverless handler that creates
  an account already confirmed.
- **SoundCloud player** (`SoundCloudPlayer`). Builds the embed URL with `encodeURIComponent`,
  modelled exactly as UTF-8 percent-encoding in `Uri`, and filters the playable tracks.
- **Data hooks** (`UseStats`, `UseContactInfo`, `UseArtist`, `UseTracks`, `UseBlog`, built
  on `Fetch`). Each turns a query outcome into hook state, including the built-in stand-in
  data used when the table reports no rows. They also handle the mutators and the refetch
  counter.
- **Admin auth guard** (`AuthGuard`). Sign-in and sign-up modes, the error-message
  priority mapping, the banner and the authenticated flag.
- **Statistics editor** (`StatsManagement`). The icon table, the add form's required
  fields and default position, inline editing, confirmed deletion and the up/down moves.
- **Public contact page** (`ContactPage`). Texts with fallbacks, the `mailto:` and `tel:`
  links, the social-link list, the form schema and the submit/confirmation cycle.
- **Contact and profile editors** (`ContactManagement`, `ProfileManagement`, sharing
  `Forms`). Seeding from the record or from fallbacks, single-field updates, the rows a save
  writes, and the save notice.

JavaScript semantics are written out where they matter:

- **Truthiness:** `x || fallback` on strings is `Common.Or` and `Common.OrDefault`.
- **Whitespace:** `\s` and `String.prototype.trim` share one whitespace set, `Strings.IsWhitespace`.
- **Lengths:** zod's `.min` counts UTF-16 code units (`Strings.Utf16Length`).
- **Caught values:** `err instanceof Error ? err.message : 'Unknown error'` is `Fetch.ThrownMessage`.

## Model

| member | source | states |
|---|---|---|
| ContactFunction.Handle | supabase/functions/contact/index.ts:16-114 | Every response carries the CORS headers. OPTIONS gets the empty preflight reply and other non-POST methods get 405. A row is inserted exactly when the request is a POST with a parsable body, all four fields present and an email of the accepted shape. A 200 reply only follows a successful insert. An unparsable body gives 500 with the generic server error. |
| ContactFunction.MissingFieldRejected | supabase/functions/contact/index.ts:39-47 | With any field missing or empty, a POST gets 400 "all fields required", nothing is inserted, and the email-format error is never the reply. |
| ContactFunction.InvalidEmailRejected | supabase/functions/contact/index.ts:50-59 | With all fields present, the reply is the email-format error exactly when the email does not match the regular expression. |
| ContactFunction.StoredRowNormalised | supabase/functions/contact/index.ts:64-71 | The stored name, subject and message are the trimmed inputs. The stored email is the lower-cased input, and trimming it changes nothing because an accepted email has no whitespace. |
| ContactFunction.InsertOutcomeDecidesReply | supabase/functions/contact/index.ts:74-113 | For an accepted request, an insert error gives 500 "save failed" and an exception gives 500 "server error". Success gives 200 with `success`, the fixed message and the first returned row's id. |
| ContactFunction.WhitespaceOnlyNameStoredEmpty | supabase/functions/contact/index.ts:39-66 | A name made only of whitespace passes the presence check, and the row is stored with an empty name. |
| Strings.EmailShapeMatchesRegex | supabase/functions/contact/index.ts:50-51 | The decidable email check holds exactly when the email splits as `a@b.c` with `a`, `b`, `c` non-empty and free of whitespace and '@'. This is the regular expression's meaning. |
| Strings.Trim | supabase/functions/contact/index.ts:66-69 | The result is a contiguous part of the input, with only whitespace removed around it. It neither starts nor ends with whitespace. |
| Strings.TrimEmptyIff | src/components/SoundCloudPlayer.tsx:45 | Trimming yields the empty string exactly when the input is all whitespace. |
| Strings.RemoveWhitespace | src/pages/Contact.tsx:59 | The result has no whitespace, and it is empty exactly when the input is all whitespace. Input without whitespace is returned unchanged. |
| Strings.RemoveWhitespaceKeepsRest | src/pages/Contact.tsx:59 | The result keeps every non-whitespace character of the input, as often as it occurs and in input order, and drops every whitespace character. |
| Strings.RemoveWhitespaceAppend | src/pages/Contact.tsx:59 | Removing whitespace from a concatenation gives the concatenation of the two results. |
| Strings.RemoveWhitespaceChar | src/pages/Contact.tsx:59 | A single character is dropped exactly when it is whitespace. |
| Strings.ToLower | supabase/functions/contact/index.ts:67 | Lower-casing keeps the length and maps each character on its own: ASCII capitals to small letters, everything else unchanged. |
| AutoConfirmFunction.Handle | supabase/functions/auto-confirm-user/index.ts:9-91 | Every response carries the CORS headers. OPTIONS gets the preflight reply and other non-POST methods get 405. An account is requested exactly for a POST with a parsable body and a non-empty email and password. The request always passes them verbatim with `email_confirm` set. |
| AutoConfirmFunction.MissingCredentialsRejected | supabase/functions/auto-confirm-user/index.ts:32-40 | A missing or empty email or password gives 400 and no account request. |
| AutoConfirmFunction.ProviderErrorPassedThrough | supabase/functions/auto-confirm-user/index.ts:49-58 | A provider error gives 400 whose error text is the provider's message, verbatim. |
| AutoConfirmFunction.SuccessReportsConfirmedUser | supabase/functions/auto-confirm-user/index.ts:62-76 | Success gives 200 with `success`, the fixed message, and the created user's id and email marked confirmed. |
| AutoConfirmFunction.ExceptionsGiveGenericError | supabase/functions/auto-confirm-user/index.ts:78-90 | An exception, including an unparsable body, gives 500 with the fixed account-creation error. |
| Uri.Encode | src/components/SoundCloudPlayer.tsx:17 | Every output character is an unreserved character, '%' or a hex digit. Input made only of unreserved characters is returned unchanged. |
| Uri.EncodeHasNoDelimiters | src/components/SoundCloudPlayer.tsx:17-22 | The encoded text contains no '&', '=', '?' or '#'. |
| Uri.DecodeEncode | src/components/SoundCloudPlayer.tsx:17-22 | Decoding the percent-escapes of the encoded text gives back the UTF-8 bytes of the input. |
| SoundCloudPlayer.EmbedUrl | src/components/SoundCloudPlayer.tsx:14-24 | Both branches produce the same player prefix, then the encoded target, then the same parameter suffix. The target is the input when it contains "soundcloud.com/", and the track-API URL of the input otherwise. |
| SoundCloudPlayer.EmbedParameterIsolated | src/components/SoundCloudPlayer.tsx:16-23 | The part between prefix and suffix contains no query delimiter, so the input cannot add or override parameters. It decodes to exactly the target's UTF-8 bytes. |
| SoundCloudPlayer.IsPlayableSimplified | src/components/SoundCloudPlayer.tsx:43-47 | A track is kept exactly when its URL contains "soundcloud.com" or is one or more digits. The non-empty and not-all-whitespace tests are implied by those. |
| SoundCloudPlayer.PlayableTracks | src/components/SoundCloudPlayer.tsx:43-47 | The filter keeps exactly the playable tracks, as a subsequence of the input in the same order. |
| SoundCloudPlayer.PlayableTracksCounts | src/components/SoundCloudPlayer.tsx:43-47 | Each playable track is kept as many times as the input holds it, and every other track is dropped. |
| SoundCloudPlayer.SlashlessUrlTreatedAsId | src/components/SoundCloudPlayer.tsx:16-22 | A URL containing "soundcloud.com" but no "soundcloud.com/" passes the filter, yet is embedded through the track-id branch. |
| SoundCloudPlayer.MockTracksPlayable | src/hooks/useTracks.ts:22-43 | Both stand-in tracks pass the player's filter. |
| SoundCloudPlayer.MockTracksEmbedAsUrls | src/hooks/useTracks.ts:26-36 | Both stand-in tracks are embedded through the full-URL branch. |
| Fetch.ResolveList | src/hooks/useStats.ts:20-71 | After a fetch, loading is off. Rows replace the items, with no data read as `[]`. The not-found code gives the stand-in list. Any other error or exception sets the error text and keeps the items. The error only changes on a failure. |
| Fetch.Mutate | src/hooks/useStats.ts:89-94 | A mutator succeeds exactly when the write did. Success returns the data and bumps the refetch counter by one. Failure returns the caught message and leaves the counter alone. |
| UseStats.DefaultStatsOrdered | src/hooks/useStats.ts:18-60 | The four stand-in statistics have ids "1" to "4" and positions 1 to 4 in list order. They are therefore sorted as the ascending query requires, and their ids are distinct. |
| UseStats.FetchStats | src/hooks/useStats.ts:20-71 | The not-found code gives the four stand-in statistics. Any other error sets the error text. An exception keeps the list and sets the error to the thrown error's message, or 'Unknown error' when the thrown value is not an Error. Rows (or `[]`) replace the list and leave the error as it was. Loading ends and the counter is untouched. |
| UseStats.RefetchStats | src/hooks/useStats.ts:151 | The refetch counter goes up by exactly one and the list is unchanged. |
| UseStats.CreateStat | src/hooks/useStats.ts:77-96 | The insert carries the given columns stamped with the current time. On success it returns the created row and schedules one refetch. On failure the hook is unchanged. |
| UseStats.UpdateStat | src/hooks/useStats.ts:98-115 | The update sends the patch for the id with a fresh `updated_at`. Success gives one refetch and failure none. |
| UseStats.DeleteStat | src/hooks/useStats.ts:117-131 | The delete targets the id. Success gives one refetch and failure none. |
| UseStats.ReorderStat | src/hooks/useStats.ts:133-150 | The update sends only the new position for the id. Success gives one refetch and failure none. |
| UseStats.ApplyUpdate | src/hooks/useStats.ts:100-106 | An update keeps the table's length, keeps the ids and creation times of every row, and changes no row with another id. |
| UseStats.ReorderChangesOnlyOrder | src/hooks/useStats.ts:133-141 | Applied to the table, a reorder changes only the position and `updated_at` of the rows with that id. |
| UseContactInfo.FetchAndUpdateAgree | src/hooks/useContactInfo.ts:36-89 | The fetch and the update use the same filter (`contact_info` rows with `section_type` "main"). The stand-in record would match it, with id "default" and links for every platform but Facebook. It is built by the hook and never stored, so no update writes it. |
| UseContactInfo.Selected | src/hooks/useContactInfo.ts:36-39 | A row is selected exactly when it is in the table and matches the filter; the selection is no longer than the table. |
| UseContactInfo.FetchRows | src/hooks/useContactInfo.ts:36-40 | The query returns at most one row (`.limit(1)`). It returns none exactly when no row matches, and otherwise the first matching row. |
| UseContactInfo.FetchShowsFirstSelectedRow | src/hooks/useContactInfo.ts:36-69 | Fetching from a table shows its first "main" row, however many there are, and no record exactly when there is none. |
| UseContactInfo.FetchContactInfo | src/hooks/useContactInfo.ts:33-75 | The not-found code gives the stand-in record. Any other error sets the error text. An exception keeps the record and sets the error to the thrown error's message, or 'Unknown error' when the thrown value is not an Error. Rows give their first element or none. Loading ends. |
| UseContactInfo.UpdateContactInfo | src/hooks/useContactInfo.ts:81-99 | The result is true exactly when the write succeeded, and then exactly one refetch is scheduled. On failure the hook is unchanged. |
| UseContactInfo.RefetchContactInfo | src/hooks/useContactInfo.ts:101 | The refetch counter goes up by one and nothing else changes. |
| UseArtist.FetchArtist | src/hooks/useArtist.ts:14-45 | Loading ends. There is an artist exactly when the query returned rows, and an error exactly when there is none. No rows gives the stand-in artist with id "default"; otherwise the first row. A query error's message is the error. An exception's error is the thrown error's message, or 'Unknown error' when the thrown value is not an Error. A query with neither rows nor an error fails with the message of reading `[0]` of `null`. |
| UseTracks.MockTracksOrdered | src/hooks/useTracks.ts:17-43 | The two stand-in tracks have positions 1 and 2, sorted as the ascending query requires. |
| UseTracks.FetchTracks | src/hooks/useTracks.ts:12-58 | The not-found code gives the stand-in tracks. Any other error sets the error text. An exception empties the list and sets the error to the thrown error's message, or 'Unknown error' when the thrown value is not an Error. Rows (or `[]`) replace the list. Loading ends. |
| UseBlog.MockPostsPublished | src/hooks/useBlog.ts:17-44 | Both stand-in posts are published, as the query's filter requires. |
| UseBlog.MockPostsNewestFirst | src/hooks/useBlog.ts:18-41 | The stand-in posts are in strictly descending `created_at` order, as the query's ordering requires. |
| UseBlog.FetchPosts | src/hooks/useBlog.ts:12-59 | The not-found code gives the stand-in posts. Any other error sets the error text. An exception empties the list and sets the error to the thrown error's message, or 'Unknown error' when the thrown value is not an Error. Rows (or `[]`) replace the list. Loading ends. |
| AuthGuard.MapAuthError | src/components/AuthGuard.tsx:67-79 | The first known phrase found in the message decides the text, in the order: wrong credentials, unconfirmed email, already registered, invalid address. Otherwise the message is kept, or the generic text if it is empty. The result is never empty. |
| AuthGuard.MappedErrorsAreNotSuccess | src/components/AuthGuard.tsx:69-78 | A mapped error is not drawn as a success unless the provider's own message starts with '✅'. None of the fixed texts does. |
| AuthGuard.HandleAuth | src/components/AuthGuard.tsx:34-85 | Loading is off on every path, and the credentials and authenticated flag are untouched. A successful sign-up sets the confirmation banner and switches to sign-in. A failed one maps the server's `error` field, or "Помилка реєстрації" without one, and stays in sign-up mode. A sign-up whose call throws shows the priority mapping of the thrown message and stays in sign-up mode. A sign-in leaves the banner empty exactly when it succeeds, and a sign-in error shows the priority mapping of its message. |
| AuthGuard.BeginAuth | src/components/AuthGuard.tsx:36-37 | While the request runs, loading is on and the banner is empty. |
| AuthGuard.CallFor | src/components/AuthGuard.tsx:40-63 | Sign-up mode calls the registration function and sign-in mode calls the provider, both with the form's email and password. |
| AuthGuard.SuccessBannerOnlyAfterRegistration | src/components/AuthGuard.tsx:53-79 | Unless a server or provider message itself starts with '✅', the banner is drawn as a success exactly after a successful registration. |
| AuthGuard.ToggleMode | src/components/AuthGuard.tsx:197-200 | The mode flips and the banner is cleared; every other part of the state is unchanged. |
| AuthGuard.ToggleTwice | src/components/AuthGuard.tsx:197-200 | Pressing the switch link twice returns to the original mode with the banner cleared and nothing else changed. |
| AuthGuard.OnSession | src/components/AuthGuard.tsx:21-29 | The authenticated flag equals session presence, and nothing else changes. |
| AuthGuard.SignOut | src/components/AuthGuard.tsx:87-90 | After signing out the guard is not authenticated, and nothing else changes. |
| StatsManagement.IconFor | src/components/StatsManagement.tsx:21-28 | Each table key resolves to its icon. Any name outside the table falls back to the chart icon. |
| StatsManagement.PickerMatchesIconTable | src/components/StatsManagement.tsx:21-37 | The picker offers exactly the six table keys, with no two alike and each resolving to a different icon. |
| StatsManagement.DefaultStatsHaveKnownIcons | src/components/StatsManagement.tsx:240 | Every stand-in statistic names an icon from the table, so none falls back. |
| StatsManagement.EffectiveOrder | src/components/StatsManagement.tsx:73 | The created position is the typed number unless it is 0 or `NaN`, and then the row count plus one. It is never 0. |
| StatsManagement.DefaultPositionIsLast | src/components/StatsManagement.tsx:73 | With no typed position, and rows numbered within 1..n, the new statistic goes after every row. |
| StatsManagement.Edit | src/components/StatsManagement.tsx:39-42 | The row becomes the one being edited, and the patch is seeded with its columns. |
| StatsManagement.Type | src/components/StatsManagement.tsx:259-293 | A keystroke changes exactly one column of the patch. |
| StatsManagement.Cancel | src/components/StatsManagement.tsx:57-60 | Edit mode ends and the patch is dropped. The add form is untouched. |
| StatsManagement.EditThenCancel | src/components/StatsManagement.tsx:39-60 | Editing, typing anything and cancelling leaves the editor as it was. |
| StatsManagement.Save | src/components/StatsManagement.tsx:44-55 | The patch is sent for the id. Success ends edit mode. Failure keeps the edit open and alerts with the caught message. |
| StatsManagement.SaveUntouchedEditKeepsRow | src/components/StatsManagement.tsx:39-46 | Saving an untouched edit writes the row's own values back, so only `updated_at` changes. |
| StatsManagement.Add | src/components/StatsManagement.tsx:62-88 | A draft without caption or value is refused with an alert and no create call. Otherwise the create carries the draft at its effective position. Success closes and resets the form; failure keeps the draft and alerts. |
| StatsManagement.Delete | src/components/StatsManagement.tsx:90-100 | The delete is issued exactly when the dialog was confirmed. A failure alerts. |
| StatsManagement.MoveUp | src/components/StatsManagement.tsx:102-111 | A reorder is issued exactly when the position is above 1, and it asks for the position one lower, which is at least 1. |
| StatsManagement.MoveDown | src/components/StatsManagement.tsx:113-120 | A reorder for the position one higher is always issued. |
| StatsManagement.MovesShiftOnePosition | src/components/StatsManagement.tsx:102-120 | In the table, a move changes the row's position by exactly one and leaves every other row as it was. |
| StatsManagement.ButtonsMatchMoveGuard | src/components/StatsManagement.tsx:333-341 | On a list numbered 1..n, the up button is enabled exactly on the rows `moveUp` would move. The down button is disabled on the last row only. |
| ContactPage.Texts | src/pages/Contact.tsx:52-271 | Each of the nine texts, the form button's label included, is the record's field, or its fallback when there is no record or the field is empty. |
| ContactPage.TextsShowFilledRecord | src/pages/Contact.tsx:52-271 | A record whose texts are all filled in is shown verbatim. A record whose texts are all empty shows what the page shows without a record. |
| ContactPage.DefaultRecordShowsFallbacks | src/pages/Contact.tsx:52-180 | The contact hook's stand-in record draws exactly the texts shown without any record. |
| ContactPage.EmailHref | src/pages/Contact.tsx:52-53 | The link is "mailto:" followed by the email shown, or the default address when it is missing or empty. |
| ContactPage.PhoneHref | src/pages/Contact.tsx:59 | The link is "tel:" followed by the number with all whitespace removed. A missing or all-whitespace number gives the fallback dial number. A number without whitespace is used as is. |
| ContactPage.SpacedNumberDialsGroups | src/pages/Contact.tsx:58-59 | A number typed as two groups around a space dials the two groups run together. |
| ContactPage.PhoneLinkIgnoresSpacing | src/pages/Contact.tsx:59 | Two numbers that differ only in whitespace dial the same link. |
| ContactPage.SocialEntries | src/pages/Contact.tsx:69-94 | A platform has an entry exactly when its link is present and non-empty. The entry carries that link, and entries come in the order Instagram, Twitter, YouTube, Facebook. |
| ContactPage.DefaultRecordSocials | src/pages/Contact.tsx:69-94 | The stand-in record lists Instagram, Twitter and YouTube with their links. |
| ContactPage.Validate | src/pages/Contact.tsx:9-14 | A field has an error exactly when it breaks its rule: name under 2, subject under 5, or message under 10 UTF-16 units, or a failed email check. Each error carries its fixed message. |
| ContactPage.ValidFormPassesContactFunction | src/pages/Contact.tsx:9-14 | A form the schema accepts has a name, subject and message. With an email of the function's shape, the contact function would accept it. |
| ContactPage.Press | src/pages/Contact.tsx:245-247 | A disabled button does nothing. Otherwise the schema runs, and submission starts exactly when the form is valid. |
| ContactPage.Complete | src/pages/Contact.tsx:31-37 | After the handler, the form is reset, the confirmation is on and the button is disabled. |
| ContactPage.Expire | src/pages/Contact.tsx:37 | Three seconds later the confirmation is off, the form is kept, and the button is enabled again unless a submission is in progress. |
| ContactPage.NoDoubleSubmit | src/pages/Contact.tsx:31-37 | After an accepted submission, pressing again changes nothing until the confirmation expires. |
| Forms.SetLink | src/components/ContactManagement.tsx:59-67 | One platform's input changes and the other platforms keep theirs. |
| Forms.LinksRoundTrip | src/components/ProfileManagement.tsx:18-71 | Saved link inputs come back unchanged when seeded from the saved record. Re-saving a record's links changes only a missing link, which becomes an empty string. |
| Forms.SaveNotice | src/components/ContactManagement.tsx:69-112 | The notice is drawn as a success exactly when the save succeeded. |
| ContactManagement.SeededLinks | src/components/ContactManagement.tsx:42-47 | The link inputs seeded from a record show each stored link, and an empty input for a missing one. |
| ContactManagement.SeedFrom | src/components/ContactManagement.tsx:33-47 | Each text input is the record's value or, when that is empty, its fixed fallback. |
| ContactManagement.InitialFields | src/components/ContactManagement.tsx:11-27 | Without a record every input holds its fallback and the links are empty. With a record the inputs are seeded exactly as the re-seeding effect seeds them. |
| ContactManagement.Reseed | src/components/ContactManagement.tsx:30-50 | A new record re-seeds the inputs with the same fallbacks as the first render. A missing one leaves them alone. |
| ContactManagement.EditorMatchesPage | src/components/ContactManagement.tsx:11-20 | For any record, or none, the editor starts with the texts the public page shows. |
| ContactManagement.DefaultRecordSeedsFallbacks | src/components/ContactManagement.tsx:11-20 | The contact hook's stand-in record seeds the same texts as no record. |
| ContactManagement.SetText | src/components/ContactManagement.tsx:52-57 | Exactly one text input changes. The links and the other inputs are unchanged. |
| ContactManagement.SetSocial | src/components/ContactManagement.tsx:59-67 | Exactly one platform's link changes. All text inputs are unchanged. |
| ContactManagement.SaveRow | src/hooks/useContactInfo.ts:81-89 | The save writes every input and a new `updated_at` into each "main" row. It keeps that row's id, creation time and section, and leaves other rows alone. |
| ContactManagement.SaveThenReseed | src/components/ContactManagement.tsx:29-72 | Re-seeding from the saved row gives the inputs back, except that an emptied text input comes back as its fallback. |
| ContactManagement.SaveWritesEveryMainRow | src/hooks/useContactInfo.ts:81-89 | Every "main" row of the table takes the inputs and the new `updated_at`, not only the one the page shows. With several, they all get the inputs seeded from the first. Every other row stays. |
| ContactManagement.SaveThenFetchShowsInputs | src/hooks/useContactInfo.ts:36-89 | After a save, a fetch shows the saved texts and links whichever "main" row comes first. It shows no record exactly when the table has no "main" row. |
| ContactManagement.SaveWithoutMainRowChangesNothing | src/components/ContactManagement.tsx:69-86 | With no "main" row in the table, an accepted save still shows the success notice, yet no row changes. |
| ContactManagement.HandleSave | src/components/ContactManagement.tsx:69-86 | Updating is off afterwards. The notice is the success text with one refetch when the update succeeded, and the failure text with the hook unchanged otherwise. |
| ContactManagement.ClearNotice | src/components/ContactManagement.tsx:75-82 | Three seconds after a save the notice is empty, and the inputs and the updating flag are kept. |
| ProfileManagement.SeededLinks | src/components/ProfileManagement.tsx:35-40 | The link inputs seeded from an artist show each stored link, and an empty input for a missing one. |
| ProfileManagement.SeedFrom | src/components/ProfileManagement.tsx:29-41 | Each text input is the artist's value or, when that is empty, its fixed fallback; the logo's fallback is empty. |
| ProfileManagement.InitialFields | src/components/ProfileManagement.tsx:12-24 | Without an artist every input holds its fallback and the links are empty. With one the inputs are seeded as by the re-seeding effect. |
| ProfileManagement.Reseed | src/components/ProfileManagement.tsx:27-43 | A new artist re-seeds the inputs. A missing one leaves them alone. |
| ProfileManagement.StandInArtistDiffersFromFallbacks | src/components/ProfileManagement.tsx:13-14 | The artist hook's stand-in record is not the editor's fallback: its name starts with a Cyrillic letter and its biography is longer. The editor shows the record's texts. |
| ProfileManagement.SetText | src/components/ProfileManagement.tsx:45-50 | Exactly one text input changes. The links and the other inputs are unchanged. |
| ProfileManagement.SetSocial | src/components/ProfileManagement.tsx:52-60 | Exactly one platform's link changes. All text inputs are unchanged. |
| ProfileManagement.SaveTarget | src/components/ProfileManagement.tsx:71 | The save targets the loaded artist's id, or "default" without one. It is never empty. |
| ProfileManagement.SaveRow | src/components/ProfileManagement.tsx:65-71 | The target row takes every input and a new `updated_at`, keeping its id and creation time. Other rows stay. |
| ProfileManagement.SaveThenReseed | src/components/ProfileManagement.tsx:29-71 | Re-seeding from the saved row gives the inputs back, except that an emptied input with a fallback comes back as that fallback. |
| ProfileManagement.HandleSave | src/components/ProfileManagement.tsx:62-83 | The save targets the loaded artist (or "default") and updating is off afterwards. The notice is the success text exactly when the backend accepted the update. |
| ProfileManagement.SaveWithoutArtistChangesNothing | src/components/ProfileManagement.tsx:71-75 | If no artist was loaded and no row has id "default", an accepted save reports success yet changes no row. |
| ProfileManagement.Previews | src/components/ProfileManagement.tsx:184-215 | A preview is shown for the photo or logo exactly when its URL input is non-empty, and it shows that URL. |
| ProfileManagement.SeededPreviews | src/components/ProfileManagement.tsx:29-41 | Once an artist is loaded the photo is always previewed (its URL, or the fallback when empty), and the logo is previewed exactly when the artist has one. |
| ProfileManagement.FallbackPreviews | src/components/ProfileManagement.tsx:13-16 | Before an artist loads, the editor previews the fallback photo and no logo, because the logo's fallback is empty. |

## Left out

- **Remote calls.** Database queries and writes, the auth provider and the `fetch` to the registration function are outcome parameters. Their internals and network behaviour are not modelled.
- **Server environment.** The service-role client creation and `Deno.serve` are not modelled; a handler is a function from request and outcome to response.
- **Presentation.** React rendering, animations, CSS classes and icon components are not modelled. The only exceptions are the icon lookup and the banner and notice classification.
- **Timers and clocks.** The three-second notice and confirmation timers are the explicit steps `ContactManagement.ClearNotice` and `ContactPage.Expire`. The page's one-second simulated delay is the `Press`/`Complete` split. Timestamps are opaque strings passed in as `now`.
- **Console logging and `alert` dialogs.** Logging is not modelled; alerts are returned as values.
- **Concurrency.** Overlapping in-flight requests resolve last-response-wins in the source. Each handler is modelled as running to completion alone.
- **Strings.ToLower:** lower-cases ASCII letters only. JavaScript's `toLowerCase` also maps non-ASCII capitals, which are carried unchanged here.
- **ContactPage.Validate:** zod's `.email()` check is the parameter `emailOk`, because its regular expression is not part of this model.
- **Non-string JSON fields.** Request bodies with non-string field values (numbers, objects) are not modelled; the functions' fields are strings or absent.
- **Prototype keys in the icon lookup.** Looking up `iconMap` with an inherited key such as "constructor" is not modelled; `StatsManagement.IconFor` treats every name outside the six keys as unknown.
- **StatsManagement.Type:** a `NaN` from clearing the inline order input is not modelled. The edit patch holds integers only. A `NaN` typed in the add form is modelled (`Draft.orderIndex = None`).
- **StatsManagement.Edit:** the edit patch omits the row's id and timestamps. The source also sends them, but they carry the row's own values, and `updated_at` is overwritten by the hook.
- **Track columns.** The file-path, file-size, duration and creation-time columns of tracks are not used by any modelled logic and are not in `Records.Track`.
- **Track and blog admin editors.** Their handlers only log and persist nothing.
- **Unused pages.** The admin page shell, the home, music and blog pages, the footer, the entry point and the development connection probe are presentation or tooling.
- **AuthGuard.HandleAuth:** a thrown value without a `message` property is not modelled. The source would itself throw inside its `catch`.
- **AuthGuard password length.** The password field's `minLength` is browser form validation and is not modelled.

=== FILE: auth_guard.dfy ===
/** The admin panel's authentication guard: the authenticated flag driven by the auth
    provider's session, the sign-in/sign-up form with its mode toggle, and the banner that
    shows either the outcome of a registration or a mapped error message. Provider calls
    and the registration request are outcome parameters. */
module AuthGuard {
  import opened Common
  import opened Strings

  // The longer texts are written as two concatenated sentences so that the verifier can see
  // their first character.
  const DefaultAuthError := "Помилка аутентифікації"
  const RegistrationFailed := "Помилка реєстрації"
  const WrongCredentials := "Невірний email або пароль"
  const NotActivated := "⚠️ Акаунт не активований." + " Для активації зверніться до розробника або адміністратора сайту."
  const AlreadyRegistered := "Користувач вже зареєстрований." + " Спробуйте увійти."
  const InvalidEmailAddress := "Введіть дійсний email адрес" + " (наприклад: yourname@gmail.com)"
  const SignUpSucceeded := "✅ Акаунт створено та підтверджено!" + " Тепер можете увійти."

  datatype AuthState = AuthState(
    isAuthenticated: bool, isLoading: bool, email: string, password: string, banner: string, isSignUp: bool)

  function InitialState(): AuthState {
    AuthState(false, false, "", "", "", false)
  }

  /** The banner is drawn in the success style exactly when it starts with '✅'. */
  predicate IsSuccessBanner(banner: string) {
    StartsWith(banner, "✅")
  }

  /** The error-message mapping of `handleAuth`: the first known provider phrase found in the
      message decides the text; otherwise the message itself, or the generic text if empty. */
  function MapAuthError(message: string): (text: string)
    ensures text != ""
    ensures Contains(message, "Invalid login credentials") ==> text == WrongCredentials
    ensures !Contains(message, "Invalid login credentials") && Contains(message, "Email not confirmed") ==> text == NotActivated
    ensures (!Contains(message, "Invalid login credentials") && !Contains(message, "Email not confirmed")
             && Contains(message, "User already registered")) ==> text == AlreadyRegistered
    ensures (!Contains(message, "Invalid login credentials") && !Contains(message, "Email not confirmed")
             && !Contains(message, "User already registered") && Contains(message, "email_address_invalid"))
            ==> text == InvalidEmailAddress
    ensures (!Contains(message, "Invalid login credentials") && !Contains(message, "Email not confirmed")
             && !Contains(message, "User already registered") && !Contains(message, "email_address_invalid")
             && message != "") ==> text == message
    ensures text in {WrongCredentials, NotActivated, AlreadyRegistered, InvalidEmailAddress, DefaultAuthError} || text == message
    ensures message == "" ==> text == DefaultAuthError
  {
    if Contains(message, "Invalid login credentials") then WrongCredentials
    else if Contains(message, "Email not confirmed") then NotActivated
    else if Contains(message, "User already registered") then AlreadyRegistered
    else if Contains(message, "email_address_invalid") then InvalidEmailAddress
    else if message != "" then message
    else DefaultAuthError
  }

  /** A mapped error is never drawn as a success unless the provider's own message already
      started with '✅': none of the fixed texts does. */
  lemma MappedErrorsAreNotSuccess(message: string)
    requires !IsSuccessBanner(message)
    ensures !IsSuccessBanner(MapAuthError(message))
  {
    var text := MapAuthError(message);
    StartsWithChar(text, '✅');
    StartsWithChar(message, '✅');
  }

  /** What the registration request yields: a reply (its `ok` flag and the `error` field of
      its JSON body, if any) or an exception with a message. */
  datatype SignUpOutcome = SignUpReply(ok: bool, error: Option<string>) | SignUpThrew(message: string)

  /** What `signInWithPassword` yields. */
  datatype SignInOutcome = SignedIn | SignInError(message: string)

  /** The request `handleAuth` makes, with the form's credentials. */
  datatype AuthCall = SignUpCall(email: string, password: string) | SignInCall(email: string, password: string)

  /** The start of `handleAuth`: loading, banner cleared. */
  function BeginAuth(s: AuthState): (r: AuthState)
    ensures r.isLoading && r.banner == ""
    ensures r == s.(isLoading := true, banner := "")
  {
    s.(isLoading := true, banner := "")
  }

  /** The request the current mode sends. */
  function CallFor(s: AuthState): (c: AuthCall)
    ensures c.SignUpCall? <==> s.isSignUp
    ensures c.email == s.email && c.password == s.password
  {
    if s.isSignUp then SignUpCall(s.email, s.password) else SignInCall(s.email, s.password)
  }

  /** The end of `handleAuth` for the outcome of the call the mode makes. */
  function FinishAuth(s: AuthState, signUp: SignUpOutcome, signIn: SignInOutcome): AuthState {
    var (banner, isSignUp) :=
      if s.isSignUp then
        match signUp
        case SignUpReply(true, _) => (SignUpSucceeded, false)
        case SignUpReply(false, error) => (MapAuthError(OrDefault(error, RegistrationFailed)), true)
        case SignUpThrew(message) => (MapAuthError(message), true)
      else
        match signIn
        case SignedIn => (s.banner, false)
        case SignInError(message) => (MapAuthError(message), false);
    s.(banner := banner, isSignUp := isSignUp, isLoading := false)
  }

  /** `handleAuth` from submission to completion. */
  function HandleAuth(s: AuthState, signUp: SignUpOutcome, signIn: SignInOutcome): (r: AuthState)
    ensures !r.isLoading
    ensures r.isAuthenticated == s.isAuthenticated && r.email == s.email && r.password == s.password
    ensures s.isSignUp && signUp.SignUpReply? && signUp.ok ==> r.banner == SignUpSucceeded && !r.isSignUp
    ensures s.isSignUp && signUp.SignUpReply? && !signUp.ok ==>
      r.banner == MapAuthError(if signUp.error.Some? && signUp.error.value != "" then signUp.error.value else RegistrationFailed)
      && r.isSignUp
    ensures s.isSignUp && signUp.SignUpThrew? ==> r.banner == MapAuthError(signUp.message) && r.isSignUp
    ensures !s.isSignUp ==> !r.isSignUp && (r.banner == "" <==> signIn.SignedIn?)
    ensures !s.isSignUp && signIn.SignInError? ==> r.banner == MapAuthError(signIn.message)
    ensures r.isSignUp ==> s.isSignUp && r.banner != ""
  {
    FinishAuth(BeginAuth(s), signUp, signIn)
  }

  /** Only a successful registration draws a success banner, unless a provider or server
      message itself starts with '✅'. */
  lemma SuccessBannerOnlyAfterRegistration(s: AuthState, signUp: SignUpOutcome, signIn: SignInOutcome)
    requires signUp.SignUpReply? && signUp.error.Some? ==> !IsSuccessBanner(signUp.error.value)
    requires signUp.SignUpThrew? ==> !IsSuccessBanner(signUp.message)
    requires signIn.SignInError? ==> !IsSuccessBanner(signIn.message)
    ensures IsSuccessBanner(HandleAuth(s, signUp, signIn).banner) <==> s.isSignUp && signUp.SignUpReply? && signUp.ok
  {
    StartsWithChar(SignUpSucceeded, '✅');
    StartsWithChar(RegistrationFailed, '✅');
    MappedErrorsAreNotSuccess(RegistrationFailed);
    match signUp {
      case SignUpReply(_, error) => if error.Some? { MappedErrorsAreNotSuccess(error.value); }
      case SignUpThrew(m) => MappedErrorsAreNotSuccess(m);
    }
    if signIn.SignInError? { MappedErrorsAreNotSuccess(signIn.message); }
  }

  /** The "switch mode" link: flips the mode and clears the banner. */
  function ToggleMode(s: AuthState): (r: AuthState)
    ensures r.isSignUp == !s.isSignUp && r.banner == ""
    ensures r.(isSignUp := s.isSignUp, banner := s.banner) == s
  {
    s.(isSignUp := !s.isSignUp, banner := "")
  }

  /** Switching twice returns to the same mode, with the banner cleared. */
  lemma ToggleTwice(s: AuthState)
    ensures ToggleMode(ToggleMode(s)) == s.(banner := "")
  {
  }

  /** The session check on mount, and every auth-state event: authenticated exactly when
      a session is present. */
  function OnSession(s: AuthState, hasSession: bool): (r: AuthState)
    ensures r.isAuthenticated == hasSession
    ensures r.(isAuthenticated := s.isAuthenticated) == s
  {
    s.(isAuthenticated := hasSession)
  }

  /** `handleSignOut`: after the provider call the guard shows the login form again. */
  function SignOut(s: AuthState): (r: AuthState)
    ensures !r.isAuthenticated
    ensures r.(isAuthenticated := s.isAuthenticated) == s
  {
    s.(isAuthenticated := false)
  }
}

=== FILE: auto_confirm_function.dfy ===
/** The `auto-confirm-user` serverless function: accepts `{email, password}` and asks the
    auth provider's admin API to create an account that is already email-confirmed. The
    provider call is an outcome parameter; the result records the request made, if any. */
module AutoConfirmFunction {
  import opened Common
  import opened Http

  const CredentialsRequired := "Email та пароль обов'язкові"
  const AccountCreated := "Акаунт створено та автоматично підтверджено!"
  const CreateAccountFailed := "Помилка при створенні акаунту"

  /** The `user` object of the success reply. */
  datatype UserSummary = UserSummary(id: Option<string>, email: Option<string>, confirmed: bool)

  datatype Reply = ErrorReply(error: string) | CreatedReply(success: bool, message: string, user: UserSummary)

  /** The argument of `auth.admin.createUser`. */
  datatype CreateUserRequest = CreateUserRequest(email: string, password: string, emailConfirm: bool)

  /** What `createUser` yields: the created user (whose fields may be missing), an error
      carrying the provider's message, or an exception. */
  datatype CreateOutcome = UserCreated(id: Option<string>, email: Option<string>) | CreateError(message: string) | CreateThrew

  datatype Outcome = Outcome(response: Response<Reply>, requested: Option<CreateUserRequest>)

  function Handle(req: Request, create: CreateOutcome): (out: Outcome)
    ensures HasCors(out.response)
    ensures req.verb == "OPTIONS" ==> out.response == Preflight() && out.requested == None
    ensures req.verb != "OPTIONS" && req.verb != "POST" ==> out.response == MethodNotAllowed() && out.requested == None
    ensures out.requested.Some? <==>
      req.verb == "POST" && req.payload.JsonObject? && Present(req.payload.fields, "email") && Present(req.payload.fields, "password")
    ensures out.requested.Some? ==>
      && out.requested.value.emailConfirm
      && out.requested.value.email == req.payload.fields["email"]
      && out.requested.value.password == req.payload.fields["password"]
  {
    if req.verb == "OPTIONS" then Outcome(Preflight(), None)
    else if req.verb != "POST" then Outcome(MethodNotAllowed(), None)
    else match req.payload
      case Unparsable => Outcome(JsonResponse(500, ErrorReply(CreateAccountFailed)), None)
      case JsonObject(f) =>
        if !Present(f, "email") || !Present(f, "password") then
          Outcome(JsonResponse(400, ErrorReply(CredentialsRequired)), None)
        else
          var request := CreateUserRequest(f["email"], f["password"], true);
          match create
          case CreateError(message) => Outcome(JsonResponse(400, ErrorReply(message)), Some(request))
          case CreateThrew => Outcome(JsonResponse(500, ErrorReply(CreateAccountFailed)), Some(request))
          case UserCreated(id, email) =>
            Outcome(JsonResponse(200, CreatedReply(true, AccountCreated, UserSummary(id, email, true))), Some(request))
  }

  /** An empty or missing email or password gives 400 and no account is requested. */
  lemma MissingCredentialsRejected(req: Request, create: CreateOutcome)
    requires req.verb == "POST" && req.payload.JsonObject?
    requires !Present(req.payload.fields, "email") || !Present(req.payload.fields, "password")
    ensures Handle(req, create).response == JsonResponse(400, ErrorReply(CredentialsRequired))
    ensures Handle(req, create).requested == None
  {
  }

  /** A provider error is answered with 400 and the provider's message, verbatim. */
  lemma ProviderErrorPassedThrough(req: Request, message: string)
    requires Handle(req, CreateError(message)).requested.Some?
    ensures Handle(req, CreateError(message)).response == JsonResponse(400, ErrorReply(message))
  {
  }

  /** Success is 200 with `success: true`, the fixed message, and the created user's id
      and email marked confirmed; this is the only way to get status 200 apart from the
      preflight. */
  lemma SuccessReportsConfirmedUser(req: Request, create: CreateOutcome)
    requires req.verb != "OPTIONS"
    ensures var r := Handle(req, create).response;
      r.status == 200 <==> Handle(req, create).requested.Some? && create.UserCreated?
    ensures var r := Handle(req, create).response;
      r.status == 200 ==>
        r.body.Json? && r.body.document == CreatedReply(true, AccountCreated, UserSummary(create.id, create.email, true))
  {
  }

  /** An unparsable body, or an exception from the provider call, gives 500 with the fixed
      generic message. */
  lemma ExceptionsGiveGenericError(req: Request, create: CreateOutcome)
    requires req.verb == "POST"
    requires req.payload.Unparsable? || (Handle(req, create).requested.Some? && create.CreateThrew?)
    ensures Handle(req, create).response == JsonResponse(500, ErrorReply(CreateAccountFailed))
  {
  }
}

=== FILE: common.dfy ===
/** Small shared vocabulary: optional values, used wherever the TypeScript code
    has `T | null`, `T | undefined` or an optional record key. */
module Common {

  datatype Option<+T> = None | Some(value: T) {

    /** The value if present, otherwise `default` (the `x ?? default` pattern). */
    function GetOr(default: T): T {
      match this
      case Some(v) => v
      case None => default
    }
  }

  /** `s || fallback` for a possibly-missing string: an absent or empty string is falsy. */
  function OrDefault(s: Option<string>, fallback: string): string {
    if s.Some? && s.value != "" then s.value else fallback
  }

  /** `s || fallback` for a string that is always present. */
  function Or(s: string, fallback: string): string {
    if s != "" then s else fallback
  }

  /** `s` is `t` with some elements dropped, the rest in their original order. */
  ghost predicate IsSubsequence<T>(s: seq<T>, t: seq<T>) {
    if s == [] then true
    else if t == [] then false
    else (s[0] == t[0] && IsSubsequence(s[1..], t[1..])) || IsSubsequence(s, t[1..])
  }
}

=== FILE: contact_function.dfy ===
/** The `contact` serverless function: accepts `{name, email, subject, message}`,
    checks presence and email shape, and stores a normalised row in the submissions
    table. The database insert is an outcome parameter; the result records the row the
    function asked to insert, if any. */
module ContactFunction {
  import opened Common
  import opened Strings
  import opened Http

  const AllFieldsRequired := "Всі поля обов'язкові"
  const InvalidEmail := "Невірний формат email адреси"
  const SaveFailed := "Помилка при збереженні повідомлення"
  const Saved := "Повідомлення успішно надіслано та збережено!"
  const ServerError := "Помилка сервера при обробці повідомлення"

  /** The JSON documents the function answers with. */
  datatype Reply = ErrorReply(error: string) | SavedReply(success: bool, message: string, id: Option<string>)

  /** A row of `contact_submissions`. */
  datatype Submission = Submission(name: string, email: string, subject: string, message: string)

  /** What the insert-and-select call returns: the ids of the inserted rows, an error
      object, or an exception. */
  datatype InsertOutcome = Inserted(ids: seq<string>) | InsertError | InsertThrew

  datatype Outcome = Outcome(response: Response<Reply>, inserted: Option<Submission>)

  predicate AllPresent(f: map<string, string>) {
    Present(f, "name") && Present(f, "email") && Present(f, "subject") && Present(f, "message")
  }

  /** The request reaches the insert: a POST with a parsed body, every field present and
      an email of the accepted shape. */
  predicate Accepted(req: Request) {
    && req.verb == "POST"
    && req.payload.JsonObject?
    && AllPresent(req.payload.fields)
    && IsEmailShape(req.payload.fields["email"])
  }

  /** The stored row: text fields trimmed, email lowercased and trimmed. */
  function Normalise(f: map<string, string>): Submission
    requires AllPresent(f)
  {
    Submission(Trim(f["name"]), Trim(ToLower(f["email"])), Trim(f["subject"]), Trim(f["message"]))
  }

  /** `data?.[0]?.id` */
  function FirstId(ids: seq<string>): Option<string> {
    if |ids| > 0 then Some(ids[0]) else None
  }

  function Handle(req: Request, insert: InsertOutcome): (out: Outcome)
    ensures HasCors(out.response)
    ensures req.verb == "OPTIONS" ==> out.response == Preflight()
    ensures req.verb != "OPTIONS" && req.verb != "POST" ==> out.response == MethodNotAllowed()
    ensures out.inserted.Some? <==> Accepted(req)
    ensures out.response.status == 200 && req.verb != "OPTIONS" ==> out.inserted.Some? && insert.Inserted?
    ensures req.verb == "POST" && req.payload.Unparsable? ==> out.response == JsonResponse(500, ErrorReply(ServerError))
  {
    if req.verb == "OPTIONS" then Outcome(Preflight(), None)
    else if req.verb != "POST" then Outcome(MethodNotAllowed(), None)
    else match req.payload
      case Unparsable => Outcome(JsonResponse(500, ErrorReply(ServerError)), None)
      case JsonObject(f) =>
        if !AllPresent(f) then Outcome(JsonResponse(400, ErrorReply(AllFieldsRequired)), None)
        else if !IsEmailShape(f["email"]) then Outcome(JsonResponse(400, ErrorReply(InvalidEmail)), None)
        else
          var row := Normalise(f);
          match insert
          case InsertError => Outcome(JsonResponse(500, ErrorReply(SaveFailed)), Some(row))
          case InsertThrew => Outcome(JsonResponse(500, ErrorReply(ServerError)), Some(row))
          case Inserted(ids) => Outcome(JsonResponse(200, SavedReply(true, Saved, FirstId(ids))), Some(row))
  }

  /** A POST missing any field, or carrying one as the empty string, gets 400 "all fields
      required" and nothing is inserted; in particular it never sees the email-format error. */
  lemma MissingFieldRejected(req: Request, insert: InsertOutcome)
    requires req.verb == "POST" && req.payload.JsonObject? && !AllPresent(req.payload.fields)
    ensures Handle(req, insert).response == JsonResponse(400, ErrorReply(AllFieldsRequired))
    ensures Handle(req, insert).inserted == None
    ensures Handle(req, insert).response.body != Json(ErrorReply(InvalidEmail))
  {
  }

  /** With every field present, the email-format error is given exactly when the email does
      not match `^[^\s@]+@[^\s@]+\.[^\s@]+$`. */
  lemma InvalidEmailRejected(req: Request, insert: InsertOutcome)
    requires req.verb == "POST" && req.payload.JsonObject? && AllPresent(req.payload.fields)
    ensures Handle(req, insert).response.body == Json(ErrorReply(InvalidEmail))
      <==> !MatchesEmailRegex(req.payload.fields["email"])
    ensures !MatchesEmailRegex(req.payload.fields["email"]) ==>
      Handle(req, insert).response.status == 400 && Handle(req, insert).inserted == None
  {
    EmailShapeMatchesRegex(req.payload.fields["email"]);
  }

  /** The stored email is the lowercased input: an accepted email has no whitespace, so
      the trim applied after lowercasing changes nothing. The other fields are trimmed. */
  lemma StoredRowNormalised(req: Request, insert: InsertOutcome)
    requires Handle(req, insert).inserted.Some?
    ensures var row := Handle(req, insert).inserted.value;
      var f := req.payload.fields;
      && row.email == ToLower(f["email"])
      && row.name == Trim(f["name"]) && row.subject == Trim(f["subject"]) && row.message == Trim(f["message"])
  {
    var e := req.payload.fields["email"];
    LowerKeepsShapeChars(e);
    assert NoWhitespace(ToLower(e));
    TrimNoWhitespace(ToLower(e));
  }

  /** The answer to an accepted request depends only on the insert outcome: an error object
      gives 500, an exception the generic 500, success 200 with the first returned id. */
  lemma InsertOutcomeDecidesReply(req: Request, insert: InsertOutcome)
    requires Accepted(req)
    ensures insert.InsertError? ==> Handle(req, insert).response == JsonResponse(500, ErrorReply(SaveFailed))
    ensures insert.InsertThrew? ==> Handle(req, insert).response == JsonResponse(500, ErrorReply(ServerError))
    ensures insert.Inserted? ==>
      Handle(req, insert).response == JsonResponse(200, SavedReply(true, Saved, if |insert.ids| > 0 then Some(insert.ids[0]) else None))
  {
  }

  /** The presence check looks at the raw strings, so a name made only of whitespace
      (say " ") passes it and is stored as the empty string. */
  lemma WhitespaceOnlyNameStoredEmpty(req: Request, insert: InsertOutcome)
    requires Accepted(req) && AllWhitespace(req.payload.fields["name"])
    ensures Handle(req, insert).inserted.Some?
    ensures Handle(req, insert).inserted.value.name == ""
  {
    TrimEmptyIff(req.payload.fields["name"]);
  }
}

=== FILE: contact_management.dfy ===
/** The admin panel's contact editor: a form seeded from the contact record (or the same
    fallbacks the public page shows), edited field by field, and saved over the `main`
    contact row through the contact hook. */
module ContactManagement {
  import opened Common
  import opened Records
  import opened Fetch
  import opened Forms
  import opened ContactPage
  import opened UseContactInfo

  /** The editor's inputs. */
  datatype ContactFields = ContactFields(
    title: string, subtitle: string, contactTitle: string, email: string, phone: string,
    location: string, socialTitle: string, formTitle: string, formButtonText: string, links: LinkFields)

  /** The nine text inputs, named as in `handleInputChange`. */
  datatype TextField = Title | Subtitle | ContactTitle | EmailField | Phone | Location | SocialTitle | FormTitle | FormButtonText

  function GetText(f: ContactFields, field: TextField): string {
    match field
    case Title => f.title
    case Subtitle => f.subtitle
    case ContactTitle => f.contactTitle
    case EmailField => f.email
    case Phone => f.phone
    case Location => f.location
    case SocialTitle => f.socialTitle
    case FormTitle => f.formTitle
    case FormButtonText => f.formButtonText
  }

  /** The fallback each text input is seeded with when the record has no value. */
  function Fallback(field: TextField): string {
    match field
    case Title => FallbackTitle
    case Subtitle => FallbackSubtitle
    case ContactTitle => FallbackContactTitle
    case EmailField => FallbackEmail
    case Phone => FallbackPhone
    case Location => FallbackLocation
    case SocialTitle => FallbackSocialTitle
    case FormTitle => FallbackFormTitle
    case FormButtonText => FallbackButtonText
  }

  /** A record's value for a text input. */
  function RecordText(c: ContactInfo, field: TextField): string {
    match field
    case Title => c.title
    case Subtitle => c.subtitle
    case ContactTitle => c.contactTitle
    case EmailField => c.email
    case Phone => c.phone
    case Location => c.location
    case SocialTitle => c.socialTitle
    case FormTitle => c.formTitle
    case FormButtonText => c.formButtonText
  }

  /** The inputs seeded from a record: each value or its fallback, and the links with
      `''` for a missing one. */
  function SeedFrom(c: ContactInfo): (f: ContactFields)
    ensures forall field :: GetText(f, field) == Or(RecordText(c, field), Fallback(field))
  {
    ContactFields(Or(c.title, FallbackTitle), Or(c.subtitle, FallbackSubtitle), Or(c.contactTitle, FallbackContactTitle),
      Or(c.email, FallbackEmail), Or(c.phone, FallbackPhone), Or(c.location, FallbackLocation),
      Or(c.socialTitle, FallbackSocialTitle), Or(c.formTitle, FallbackFormTitle), Or(c.formButtonText, FallbackButtonText),
      SeedLinks(c.socialLinks))
  }

  /** The link inputs seeded from a record show each stored link, and `''` for a missing one. */
  lemma SeededLinks(c: ContactInfo)
    ensures SeedFrom(c).links == SeedLinks(c.socialLinks)
    ensures forall p :: SeedFrom(c).links.Get(p) == OrDefault(c.socialLinks.Get(p), "")
  {
  }

  /** The inputs on first render, when the record may not have arrived yet. */
  function InitialFields(info: Option<ContactInfo>): (f: ContactFields)
    ensures info.None? ==> (forall field :: GetText(f, field) == Fallback(field)) && f.links == NoLinks
    ensures info.Some? ==> f == SeedFrom(info.value)
  {
    match info
    case None => ContactFields(FallbackTitle, FallbackSubtitle, FallbackContactTitle, FallbackEmail, FallbackPhone,
                               FallbackLocation, FallbackSocialTitle, FallbackFormTitle, FallbackButtonText, NoLinks)
    case Some(c) => SeedFrom(c)
  }

  /** The effect that re-seeds the inputs whenever the record changes; a missing record
      leaves them as they are. */
  function Reseed(f: ContactFields, info: Option<ContactInfo>): (r: ContactFields)
    ensures info.None? ==> r == f
    ensures info.Some? ==> r == InitialFields(info)
  {
    if info.Some? then SeedFrom(info.value) else f
  }

  /** The editor shows the texts the public page shows for the same record. */
  lemma EditorMatchesPage(info: Option<ContactInfo>)
    ensures var f := InitialFields(info); var t := Texts(info);
      f.title == t.title && f.subtitle == t.subtitle && f.contactTitle == t.contactTitle
      && f.email == t.email && f.phone == t.phone && f.location == t.location
      && f.socialTitle == t.socialTitle && f.formTitle == t.formTitle && f.formButtonText == t.buttonText
  {
  }

  /** The hook's stand-in record seeds the same texts as no record at all. */
  lemma DefaultRecordSeedsFallbacks(now: string)
    ensures forall field :: GetText(InitialFields(Some(DefaultContactInfo(now))), field) == GetText(InitialFields(None), field)
  {
  }

  /** `handleInputChange` */
  function SetText(f: ContactFields, field: TextField, value: string): (r: ContactFields)
    ensures GetText(r, field) == value
    ensures forall other :: other != field ==> GetText(r, other) == GetText(f, other)
    ensures r.links == f.links
  {
    match field
    case Title => f.(title := value)
    case Subtitle => f.(subtitle := value)
    case ContactTitle => f.(contactTitle := value)
    case EmailField => f.(email := value)
    case Phone => f.(phone := value)
    case Location => f.(location := value)
    case SocialTitle => f.(socialTitle := value)
    case FormTitle => f.(formTitle := value)
    case FormButtonText => f.(formButtonText := value)
  }

  /** `handleSocialLinkChange` */
  function SetSocial(f: ContactFields, p: Platform, value: string): (r: ContactFields)
    ensures r.links.Get(p) == value
    ensures forall q :: q != p ==> r.links.Get(q) == f.links.Get(q)
    ensures forall field :: GetText(r, field) == GetText(f, field)
  {
    f.(links := SetLink(f.links, p, value))
  }

  /** The effect of the save on one row of `contact_info`: the `main` row takes every
      input and the new `updated_at`; other rows stay. */
  function SaveRow(row: ContactInfo, f: ContactFields, now: string): (r: ContactInfo)
    ensures !Selects(UpdateFilter, row) ==> r == row
    ensures Selects(UpdateFilter, row) ==>
      (forall field :: RecordText(r, field) == GetText(f, field))
      && r.socialLinks == StoredLinks(f.links) && r.updatedAt == now
      && r.id == row.id && r.createdAt == row.createdAt && r.sectionType == row.sectionType
  {
    if Selects(UpdateFilter, row) then
      row.(title := f.title, subtitle := f.subtitle, contactTitle := f.contactTitle, email := f.email,
           phone := f.phone, location := f.location, socialTitle := f.socialTitle, formTitle := f.formTitle,
           formButtonText := f.formButtonText, socialLinks := StoredLinks(f.links), updatedAt := now)
    else row
  }

  /** Saving and re-seeding from the saved row gives the inputs back, as long as no text
      input was left empty; an emptied input comes back as its fallback. */
  lemma SaveThenReseed(row: ContactInfo, f: ContactFields, now: string)
    requires Selects(UpdateFilter, row)
    ensures var g := SeedFrom(SaveRow(row, f, now));
      g.links == f.links
      && forall field :: GetText(g, field) == (if GetText(f, field) != "" then GetText(f, field) else Fallback(field))
  {
    LinksRoundTrip(f.links, row.socialLinks);
  }

  /** The table after a save: every row passes through `SaveRow`. */
  function SavedTable(rows: seq<ContactInfo>, f: ContactFields, now: string): (r: seq<ContactInfo>)
    ensures |r| == |rows|
    ensures forall i :: 0 <= i < |rows| ==> r[i] == SaveRow(rows[i], f, now)
  {
    if rows == [] then [] else [SaveRow(rows[0], f, now)] + SavedTable(rows[1..], f, now)
  }

  /** The save writes every "main" row, not only the one the page shows: each of them takes
      the inputs and the new `updated_at`, and every other row stays. */
  lemma SaveWritesEveryMainRow(rows: seq<ContactInfo>, f: ContactFields, now: string)
    ensures forall i :: 0 <= i < |rows| && Selects(UpdateFilter, rows[i]) ==>
      var r := SavedTable(rows, f, now)[i];
      (forall field :: RecordText(r, field) == GetText(f, field)) && r.socialLinks == StoredLinks(f.links) && r.updatedAt == now
    ensures forall i :: 0 <= i < |rows| && !Selects(UpdateFilter, rows[i]) ==> SavedTable(rows, f, now)[i] == rows[i]
  {
  }

  /** After a save, a fetch shows the inputs whichever "main" row comes first, and shows no
      record exactly when the table has no "main" row. */
  lemma SaveThenFetchShowsInputs(h: ContactInfoHook, rows: seq<ContactInfo>, f: ContactFields, now: string)
    ensures var shown := FetchContactInfo(h, Rows(Some(FetchRows(SavedTable(rows, f, now)))), now).info;
      (shown.Some? <==> exists i :: 0 <= i < |rows| && Selects(UpdateFilter, rows[i]))
      && (shown.Some? ==> (forall field :: RecordText(shown.value, field) == GetText(f, field))
                          && shown.value.socialLinks == StoredLinks(f.links))
  {
    var saved := SavedTable(rows, f, now);
    FetchShowsFirstSelectedRow(h, saved, now);
    assert (exists i :: 0 <= i < |rows| && Selects(UpdateFilter, rows[i]))
       <==> (exists i :: 0 <= i < |saved| && Selects(FetchFilter, saved[i])) by {
      forall i | 0 <= i < |rows|
        ensures Selects(UpdateFilter, rows[i]) <==> Selects(FetchFilter, saved[i])
      {
      }
    }
    var sel := Selected(FetchFilter, saved);
    var shown := FetchContactInfo(h, Rows(Some(FetchRows(saved))), now).info;
    assert shown.Some? ==> shown.value == sel[0];
    if sel != [] {
      assert sel[0] in saved;
      var k :| 0 <= k < |saved| && saved[k] == sel[0];
      assert Selects(UpdateFilter, rows[k]);
      assert sel[0] == SaveRow(rows[k], f, now);
    }
  }

  const SavedNotice := "✅ Контактну інформацію успішно оновлено!"

  /** The editor's own state. */
  datatype Editor = Editor(fields: ContactFields, isUpdating: bool, notice: string)

  /** `handleSave`: the hook's update with the inputs; the notice reports the outcome and
      the editor is idle again. */
  function HandleSave(e: Editor, h: ContactInfoHook, outcome: WriteOutcome<()>): (r: (Editor, ContactInfoHook))
    ensures !r.0.isUpdating && r.0.fields == e.fields
    ensures IsSuccessNotice(r.0.notice) <==> outcome.Written?
    ensures outcome.Written? ==> r.0.notice == SavedNotice && r.1.refetch == h.refetch + 1
    ensures outcome.WriteFailed? ==> r.0.notice == SaveFailedNotice && r.1 == h
  {
    var (ok, h') := UpdateContactInfo(h, outcome);
    (e.(isUpdating := false, notice := SaveNotice(ok, SavedNotice)), h')
  }

  /** With no "main" row in the table, a save that the backend accepts reports success yet
      changes no row. */
  lemma SaveWithoutMainRowChangesNothing(rows: seq<ContactInfo>, e: Editor, h: ContactInfoHook, now: string)
    requires forall i :: 0 <= i < |rows| ==> !Selects(UpdateFilter, rows[i])
    ensures IsSuccessNotice(HandleSave(e, h, Written(())).0.notice)
    ensures SavedTable(rows, e.fields, now) == rows
  {
  }

  /** Three seconds after a save the notice is cleared. */
  function ClearNotice(e: Editor): (r: Editor)
    ensures r.notice == "" && r.fields == e.fields && r.isUpdating == e.isUpdating
  {
    e.(notice := "")
  }
}

=== FILE: contact_page.dfy ===
/** The public contact page: the texts and contact cards drawn from the contact record
    (or their built-in fallbacks), the list of social links, the form's validation schema
    and its submit/confirmation cycle. The page's submit handler only waits and logs; it
    sends nothing to the backend. */
module ContactPage {
  import opened Common
  import opened Strings
  import opened Http
  import opened Records
  import ContactFunction
  import UseContactInfo

  const FallbackTitle := "Контакти"
  const FallbackSubtitle := "Готовий до співпраці? Зв'яжіться зі мною для обговорення проектів"
  const FallbackContactTitle := "Зв'яжіться зі мною"
  const FallbackEmail := "contact@alexnova.music"
  const FallbackPhone := "+380 XX XXX XX XX"
  const FallbackDialNumber := "+380xxxxxxxxx"
  const FallbackLocation := "Київ, Україна"
  const FallbackSocialTitle := "Соціальні мережі"
  const FallbackFormTitle := "Надіслати повідомлення"
  const FallbackButtonText := "Надіслати повідомлення"

  /** The texts the page draws from the record: each field, or its fallback when the
      record is missing or the field is empty. */
  datatype PageTexts = PageTexts(
    title: string, subtitle: string, contactTitle: string, email: string, phone: string,
    location: string, socialTitle: string, formTitle: string, buttonText: string)

  const FallbackTexts := PageTexts(FallbackTitle, FallbackSubtitle, FallbackContactTitle, FallbackEmail,
                                   FallbackPhone, FallbackLocation, FallbackSocialTitle, FallbackFormTitle,
                                   FallbackButtonText)

  function Texts(info: Option<ContactInfo>): (t: PageTexts)
    ensures info.None? ==> t == FallbackTexts
    ensures info.Some? ==>
      var c := info.value;
      t == PageTexts(Or(c.title, FallbackTitle), Or(c.subtitle, FallbackSubtitle),
                     Or(c.contactTitle, FallbackContactTitle), Or(c.email, FallbackEmail),
                     Or(c.phone, FallbackPhone), Or(c.location, FallbackLocation),
                     Or(c.socialTitle, FallbackSocialTitle), Or(c.formTitle, FallbackFormTitle),
                     Or(c.formButtonText, FallbackButtonText))
    ensures t.title != "" && t.email != "" && t.phone != "" && t.location != ""
  {
    match info
    case None => FallbackTexts
    case Some(c) => PageTexts(Or(c.title, FallbackTitle), Or(c.subtitle, FallbackSubtitle),
                              Or(c.contactTitle, FallbackContactTitle), Or(c.email, FallbackEmail),
                              Or(c.phone, FallbackPhone), Or(c.location, FallbackLocation),
                              Or(c.socialTitle, FallbackSocialTitle), Or(c.formTitle, FallbackFormTitle),
                              Or(c.formButtonText, FallbackButtonText))
  }

  /** A record whose texts are all filled in is shown as it is; a record whose texts are
      all empty shows exactly what the page shows without a record. */
  lemma TextsShowFilledRecord(c: ContactInfo)
    ensures c.title != "" && c.subtitle != "" && c.contactTitle != "" && c.email != "" && c.phone != ""
            && c.location != "" && c.socialTitle != "" && c.formTitle != "" && c.formButtonText != "" ==>
      Texts(Some(c)) == PageTexts(c.title, c.subtitle, c.contactTitle, c.email, c.phone, c.location,
                                  c.socialTitle, c.formTitle, c.formButtonText)
    ensures c.title == "" && c.subtitle == "" && c.contactTitle == "" && c.email == "" && c.phone == ""
            && c.location == "" && c.socialTitle == "" && c.formTitle == "" && c.formButtonText == "" ==>
      Texts(Some(c)) == Texts(None)
  {
  }

  /** The record the contact hook substitutes when the table has none draws exactly the
      texts the page falls back to without a record. */
  lemma DefaultRecordShowsFallbacks(now: string)
    ensures Texts(Some(UseContactInfo.DefaultContactInfo(now))) == Texts(None)
  {
  }

  /** The email card's link. */
  function EmailHref(info: Option<ContactInfo>): (href: string)
    ensures href == "mailto:" + Texts(info).email
    ensures |href| > |"mailto:"|
  {
    "mailto:" + (if info.Some? then Or(info.value.email, FallbackEmail) else FallbackEmail)
  }

  /** The phone card's link: the number with every whitespace character removed, or the
      fallback dial number when nothing else is left. */
  function PhoneHref(info: Option<ContactInfo>): (href: string)
    ensures StartsWith(href, "tel:")
    ensures NoWhitespace(href[4..]) && href[4..] != ""
    ensures info.None? || AllWhitespace(info.value.phone) ==> href[4..] == FallbackDialNumber
    ensures info.Some? && !AllWhitespace(info.value.phone) ==> href[4..] == RemoveWhitespace(info.value.phone)
    ensures info.Some? && NoWhitespace(info.value.phone) && info.value.phone != "" ==> href[4..] == info.value.phone
  {
    var number := if info.Some? then Or(RemoveWhitespace(info.value.phone), FallbackDialNumber) else FallbackDialNumber;
    assert NoWhitespace(FallbackDialNumber);
    assert ("tel:" + number)[4..] == number;
    assert ("tel:" + number)[..4] == "tel:";
    "tel:" + number
  }

  /** A number typed with spaces dials the same as the number without them, though the
      card shows it as typed. */
  lemma PhoneLinkIgnoresSpacing(c: ContactInfo, d: ContactInfo)
    requires RemoveWhitespace(c.phone) == RemoveWhitespace(d.phone)
    ensures PhoneHref(Some(c)) == PhoneHref(Some(d))
  {
  }

  /** A number typed as two groups separated by a space dials the two groups run together. */
  lemma SpacedNumberDialsGroups(c: ContactInfo, a: string, b: string)
    requires c.phone == a + " " + b
    requires NoWhitespace(a) && NoWhitespace(b) && a + b != ""
    ensures PhoneHref(Some(c)) == "tel:" + a + b
  {
    var digits := RemoveWhitespace(c.phone);
    assert digits == a + b by {
      assert c.phone == (a + " ") + b;
      RemoveWhitespaceAppend(a + " ", b);
      RemoveWhitespaceAppend(a, " ");
      RemoveWhitespaceChar(' ');
      assert IsWhitespace(' ');
    }
    var href := PhoneHref(Some(c));
    assert href[4..] == digits;
    assert href == href[..4] + href[4..];
  }

  /** The social links the page shows: the platforms in the order Instagram, Twitter,
      YouTube, Facebook, each with its link, skipping the missing and empty ones. */
  function SocialEntries(info: Option<ContactInfo>): (entries: seq<(Platform, string)>)
    ensures |entries| <= 4
    ensures forall e :: e in entries ==> e.1 != "" && info.Some? && info.value.socialLinks.Get(e.0) == Some(e.1)
    ensures forall p :: (exists e :: e in entries && e.0 == p)
                        <==> info.Some? && info.value.socialLinks.Get(p).Some? && info.value.socialLinks.Get(p).value != ""
    ensures forall i, j :: 0 <= i < j < |entries| ==> PlatformRank(entries[i].0) < PlatformRank(entries[j].0)
  {
    if info.None? then []
    else
      var l := info.value.socialLinks;
      Entry(Instagram, l.instagram) + Entry(Twitter, l.twitter) + Entry(YouTube, l.youtube) + Entry(Facebook, l.facebook)
  }

  /** One slot of the list before `filter(Boolean)`. */
  function Entry(p: Platform, link: Option<string>): (r: seq<(Platform, string)>)
    ensures if link.Some? && link.value != "" then r == [(p, link.value)] else r == []
  {
    if link.Some? && link.value != "" then [(p, link.value)] else []
  }

  /** A platform's place in the page's list. */
  function PlatformRank(p: Platform): nat {
    match p
    case Instagram => 0
    case Twitter => 1
    case YouTube => 2
    case Facebook => 3
  }

  /** The hook's stand-in record lists Instagram, Twitter and YouTube, in that order. */
  lemma DefaultRecordSocials(now: string)
    ensures SocialEntries(Some(UseContactInfo.DefaultContactInfo(now))) ==
      [(Instagram, "https://instagram.com/alexnova"), (Twitter, "https://twitter.com/alexnova"),
       (YouTube, "https://youtube.com/alexnova")]
  {
  }

  /** The contact form's fields. */
  datatype ContactForm = ContactForm(name: string, email: string, subject: string, message: string)

  const EmptyForm := ContactForm("", "", "", "")

  datatype Field = Name | Email | Subject | Message

  const NameTooShort := "Ім'я має містити хоча б 2 символи"
  const EmailMalformed := "Невірний формат email"
  const SubjectTooShort := "Тема має містити хоча б 5 символів"
  const MessageTooShort := "Повідомлення має містити хоча б 10 символів"

  /** The schema's verdict: the message for every field that breaks its rule. String
      lengths are counted in UTF-16 code units; `emailOk` is the schema's email check. */
  function Validate(f: ContactForm, emailOk: bool): (errors: map<Field, string>)
    ensures Name in errors <==> Utf16Length(f.name) < 2
    ensures Email in errors <==> !emailOk
    ensures Subject in errors <==> Utf16Length(f.subject) < 5
    ensures Message in errors <==> Utf16Length(f.message) < 10
    ensures Name in errors ==> errors[Name] == NameTooShort
    ensures Email in errors ==> errors[Email] == EmailMalformed
    ensures Subject in errors ==> errors[Subject] == SubjectTooShort
    ensures Message in errors ==> errors[Message] == MessageTooShort
  {
    var e0: map<Field, string> := map[];
    var e1 := if Utf16Length(f.name) < 2 then e0[Name := NameTooShort] else e0;
    var e2 := if !emailOk then e1[Email := EmailMalformed] else e1;
    var e3 := if Utf16Length(f.subject) < 5 then e2[Subject := SubjectTooShort] else e2;
    if Utf16Length(f.message) < 10 then e3[Message := MessageTooShort] else e3
  }

  /** A form that passes the schema has a name, subject and message, so it passes those
      presence checks of the contact function; with an email of the shape the function
      accepts, the function would accept the whole request. */
  lemma ValidFormPassesContactFunction(f: ContactForm, emailOk: bool)
    requires Validate(f, emailOk) == map[]
    ensures var fields := map["name" := f.name, "email" := f.email, "subject" := f.subject, "message" := f.message];
      && Present(fields, "name") && Present(fields, "subject") && Present(fields, "message")
      && (IsEmailShape(f.email) ==> ContactFunction.Accepted(Request("POST", JsonObject(fields))))
  {
    assert Name !in Validate(f, emailOk);
    assert Subject !in Validate(f, emailOk);
    assert Message !in Validate(f, emailOk);
    EmptyHasNoUtf16(f.name);
    EmptyHasNoUtf16(f.subject);
    EmptyHasNoUtf16(f.message);
  }

  lemma EmptyHasNoUtf16(s: string)
    ensures s == "" ==> Utf16Length(s) == 0
  {
  }

  /** The submit cycle: `pending` holds the data while the handler waits. */
  datatype SubmitState = SubmitState(form: ContactForm, isSubmitting: bool, isSubmitted: bool, errors: map<Field, string>)

  function InitialSubmit(): SubmitState {
    SubmitState(EmptyForm, false, false, map[])
  }

  predicate ButtonDisabled(s: SubmitState) {
    s.isSubmitting || s.isSubmitted
  }

  /** Pressing the submit button: ignored while it is disabled; otherwise the schema runs,
      and only a valid form starts the handler. */
  function Press(s: SubmitState, emailOk: bool): (r: SubmitState)
    ensures ButtonDisabled(s) ==> r == s
    ensures !ButtonDisabled(s) ==> r.form == s.form && r.errors == Validate(s.form, emailOk)
    ensures !ButtonDisabled(s) ==> (r.isSubmitting <==> Validate(s.form, emailOk) == map[]) && !r.isSubmitted
  {
    if ButtonDisabled(s) then s
    else
      var errors := Validate(s.form, emailOk);
      s.(errors := errors, isSubmitting := errors == map[])
  }

  /** The handler's end: confirmation on, form reset. */
  function Complete(s: SubmitState): (r: SubmitState)
    requires s.isSubmitting
    ensures r.isSubmitted && !r.isSubmitting && r.form == EmptyForm && ButtonDisabled(r)
  {
    s.(form := EmptyForm, isSubmitting := false, isSubmitted := true)
  }

  /** Three seconds later: the confirmation goes away and the button is usable again. */
  function Expire(s: SubmitState): (r: SubmitState)
    ensures !r.isSubmitted && r.form == s.form && r.isSubmitting == s.isSubmitting
    ensures ButtonDisabled(r) <==> s.isSubmitting
  {
    s.(isSubmitted := false)
  }

  /** One accepted submission leaves the button disabled until the confirmation expires:
      pressing again in between changes nothing. */
  lemma NoDoubleSubmit(s: SubmitState, emailOk: bool, again: bool)
    requires !ButtonDisabled(s) && Validate(s.form, emailOk) == map[]
    ensures var done := Complete(Press(s, emailOk));
      Press(done, again) == done && !ButtonDisabled(Expire(done))
  {
  }
}

=== FILE: fetch.dfy ===
/** The pattern every data hook follows: issue one query, then settle its local state
    from the result, falling back to hard-coded data when the backend reports "no rows"
    (error code PGRST116); and the pattern of its mutators, which report success or the
    error text and bump a refetch counter on success. */
module Fetch {
  import opened Common

  /** The backend's "no rows" error code. */
  const NotFound := "PGRST116"

  /** A value caught by `catch (err)`: an `Error` instance carries a message, anything else
      is reported as "Unknown error". */
  datatype Thrown = ErrorInstance(message: string) | NonError

  function ThrownMessage(t: Thrown): string {
    match t
    case ErrorInstance(m) => m
    case NonError => "Unknown error"
  }

  /** The result of a select: rows (`data`, possibly null), an error object with a code
      and a message, or an exception. */
  datatype QueryOutcome<T> = Rows(data: Option<seq<T>>) | QueryError(code: string, message: string) | QueryThrew(thrown: Thrown)

  /** `data || []` */
  function RowsOrEmpty<T>(data: Option<seq<T>>): seq<T> {
    data.GetOr([])
  }

  /** The state of a list hook: the items, the loading flag and the last error. */
  datatype ListState<T> = ListState(items: seq<T>, loading: bool, error: Option<string>)

  /** The state before the first fetch resolves. */
  function InitialList<T>(): ListState<T> {
    ListState([], true, None)
  }

  /** Settles a list hook after its query: rows replace the items; PGRST116 installs the
      fallback; any other error or an exception records its text and keeps the items. The
      loading flag is cleared on every path (the `finally` block), and an earlier error is
      never cleared. */
  function ResolveList<T>(s: ListState<T>, outcome: QueryOutcome<T>, fallback: seq<T>): (r: ListState<T>)
    ensures !r.loading
    ensures r.error != s.error ==> r.error.Some? && (outcome.QueryThrew? || (outcome.QueryError? && outcome.code != NotFound))
    ensures r.items != s.items ==> r.items == fallback || (outcome.Rows? && r.items == RowsOrEmpty(outcome.data))
    ensures outcome.Rows? ==> r.items == RowsOrEmpty(outcome.data) && r.error == s.error
    ensures outcome.QueryError? && outcome.code == NotFound ==> r.items == fallback && r.error == s.error
    ensures outcome.QueryError? && outcome.code != NotFound ==> r.items == s.items && r.error == Some(outcome.message)
    ensures outcome.QueryThrew? ==> r.items == s.items && r.error == Some(ThrownMessage(outcome.thrown))
  {
    match outcome
    case Rows(data) => s.(items := RowsOrEmpty(data), loading := false)
    case QueryError(code, message) =>
      if code == NotFound then s.(items := fallback, loading := false)
      else s.(error := Some(message), loading := false)
    case QueryThrew(t) => s.(error := Some(ThrownMessage(t)), loading := false)
  }

  /** One fetch: `setLoading(true)`, then the query settles. */
  function FetchList<T>(s: ListState<T>, outcome: QueryOutcome<T>, fallback: seq<T>): ListState<T> {
    ResolveList(s.(loading := true), outcome, fallback)
  }

  /** What a write call yields: success with the returned data, or a thrown error. */
  datatype WriteOutcome<D> = Written(data: D) | WriteFailed(thrown: Thrown)

  /** `{ success: true, data }` or `{ success: false, error }`. */
  datatype MutationResult<D> = Succeeded(data: D) | Failed(error: string)

  /** A mutator: on success it triggers exactly one refetch (the counter goes up by one);
      on failure it reports the error text and triggers none. */
  function Mutate<D>(refetch: nat, outcome: WriteOutcome<D>): (r: (MutationResult<D>, nat))
    ensures r.0.Succeeded? <==> outcome.Written?
    ensures r.0.Succeeded? ==> r.0.data == outcome.data && r.1 == refetch + 1
    ensures r.0.Failed? ==> r.0.error == ThrownMessage(outcome.thrown) && r.1 == refetch
  {
    match outcome
    case Written(d) => (Succeeded(d), refetch + 1)
    case WriteFailed(t) => (Failed(ThrownMessage(t)), refetch)
  }
}

=== FILE: forms.dfy ===
/** Pieces shared by the admin panel's profile and contact editors: the four social-link
    inputs, and the notice shown for three seconds after a save. */
module Forms {
  import opened Common
  import opened Strings
  import opened Records

  /** The social-link inputs: always strings, empty for "no link". */
  datatype LinkFields = LinkFields(instagram: string, twitter: string, youtube: string, facebook: string)
  {
    function Get(p: Platform): string {
      match p
      case Instagram => instagram
      case Twitter => twitter
      case YouTube => youtube
      case Facebook => facebook
    }
  }

  const NoLinks := LinkFields("", "", "", "")

  /** The inputs seeded from a record's links: `link || ''`. */
  function SeedLinks(links: SocialLinks): (f: LinkFields)
    ensures forall p :: f.Get(p) == OrDefault(links.Get(p), "")
  {
    LinkFields(OrDefault(links.instagram, ""), OrDefault(links.twitter, ""),
               OrDefault(links.youtube, ""), OrDefault(links.facebook, ""))
  }

  /** `handleSocialLinkChange`: one platform's input changes, the others stay. */
  function SetLink(f: LinkFields, p: Platform, value: string): (r: LinkFields)
    ensures r.Get(p) == value
    ensures forall q :: q != p ==> r.Get(q) == f.Get(q)
  {
    match p
    case Instagram => f.(instagram := value)
    case Twitter => f.(twitter := value)
    case YouTube => f.(youtube := value)
    case Facebook => f.(facebook := value)
  }

  /** The `social_links` object a save writes: every key, empty strings included. */
  function StoredLinks(f: LinkFields): (links: SocialLinks)
    ensures forall p :: links.Get(p) == Some(f.Get(p))
  {
    SocialLinks(Some(f.instagram), Some(f.twitter), Some(f.youtube), Some(f.facebook))
  }

  /** Saved links come back unchanged when the form is seeded from the saved record, and
      a record's links survive a save of the untouched form up to `null` becoming `''`. */
  lemma LinksRoundTrip(f: LinkFields, links: SocialLinks)
    ensures SeedLinks(StoredLinks(f)) == f
    ensures forall p :: (StoredLinks(SeedLinks(links)).Get(p) ==
                         if links.Get(p).Some? then links.Get(p) else Some(""))
  {
    var g := SeedLinks(StoredLinks(f));
    assert g.Get(Instagram) == f.Get(Instagram) && g.Get(Twitter) == f.Get(Twitter);
    assert g.Get(YouTube) == f.Get(YouTube) && g.Get(Facebook) == f.Get(Facebook);
  }

  const SaveFailedNotice := "❌ Помилка при збереженні. Спробуйте ще раз."

  /** A notice is drawn in the success style when it contains '✅'. */
  predicate IsSuccessNotice(notice: string) {
    Contains(notice, "✅")
  }

  /** The notice after a save: `saved` on success, the failure text otherwise. */
  function SaveNotice(succeeded: bool, saved: string): (notice: string)
    requires '✅' in saved
    ensures IsSuccessNotice(notice) <==> succeeded
    ensures notice != ""
  {
    ContainsChar(saved, '✅');
    ContainsChar(SaveFailedNotice, '✅');
    if succeeded then saved else SaveFailedNotice
  }
}

=== FILE: http.dfy ===
/** What the two serverless functions share: the request as they see it once the
    runtime has parsed it, the response they build, and the permissive CORS headers. */
module Http {

  type Headers = map<string, string>

  const CorsHeaders: Headers := map[
    "Access-Control-Allow-Origin" := "*",
    "Access-Control-Allow-Headers" := "authorization, x-client-info, apikey, content-type",
    "Access-Control-Allow-Methods" := "POST, OPTIONS"
  ]

  /** The CORS headers plus the JSON content type, used for every JSON response. */
  const JsonHeaders: Headers := CorsHeaders["Content-Type" := "application/json"]

  /** The request body: `req.json()` either throws or yields an object whose string
      fields are given here (a missing key is `undefined`). */
  datatype Payload = Unparsable | JsonObject(fields: map<string, string>)

  datatype Request = Request(verb: string, payload: Payload)

  /** A response body: `null`, plain text, or a JSON document of type `J`. */
  datatype Body<J> = NullBody | PlainText(text: string) | Json(document: J)

  /** `new Response(body, { status, headers })`; the status defaults to 200. */
  datatype Response<J> = Response(status: int, headers: Headers, body: Body<J>)

  /** The CORS preflight answer: no body, default status, CORS headers. */
  function Preflight<J>(): (r: Response<J>)
    ensures HasCors(r) && r.status == 200
  {
    Response(200, CorsHeaders, NullBody)
  }

  function MethodNotAllowed<J>(): (r: Response<J>)
    ensures HasCors(r) && r.status == 405
  {
    Response(405, CorsHeaders, PlainText("Method not allowed"))
  }

  function JsonResponse<J>(status: int, document: J): (r: Response<J>)
    ensures HasCors(r) && r.status == status
  {
    assert forall k :: k in CorsHeaders ==> k != "Content-Type";
    Response(status, JsonHeaders, Json(document))
  }

  /** Every CORS header is present with its fixed value. */
  predicate HasCors<J>(r: Response<J>) {
    forall k :: k in CorsHeaders ==> k in r.headers && r.headers[k] == CorsHeaders[k]
  }

  /** JavaScript truthiness of a destructured string field: present and non-empty. */
  predicate Present(fields: map<string, string>, key: string) {
    key in fields && fields[key] != ""
  }
}

=== FILE: profile_management.dfy ===
/** The admin panel's profile editor: a form seeded from the artist record (or built-in
    fallbacks), edited field by field, and written over the artist row it was loaded
    from, with image previews for the entered URLs. */
module ProfileManagement {
  import opened Common
  import opened Records
  import opened Fetch
  import opened Forms
  import UseArtist

  const FallbackName := "ALEX NOVA"
  const FallbackBio := "Український музичний продюсер та діджей"
  const FallbackImageUrl := "https://images.pexels.com/photos/1763075/pexels-photo-1763075.jpeg"
  const FallbackSoundcloudUsername := "alexnova"

  /** The id the save targets when no artist was loaded. */
  const FallbackId := "default"

  /** The editor's inputs. */
  datatype ProfileFields = ProfileFields(
    name: string, bio: string, imageUrl: string, logoUrl: string, soundcloudUsername: string, links: LinkFields)

  /** The five text inputs, named as in `handleInputChange`. */
  datatype TextField = Name | Bio | ImageUrl | LogoUrl | SoundcloudUsername

  function GetText(f: ProfileFields, field: TextField): string {
    match field
    case Name => f.name
    case Bio => f.bio
    case ImageUrl => f.imageUrl
    case LogoUrl => f.logoUrl
    case SoundcloudUsername => f.soundcloudUsername
  }

  /** The fallback each text input is seeded with; the logo has none. */
  function Fallback(field: TextField): string {
    match field
    case Name => FallbackName
    case Bio => FallbackBio
    case ImageUrl => FallbackImageUrl
    case LogoUrl => ""
    case SoundcloudUsername => FallbackSoundcloudUsername
  }

  function RecordText(a: Artist, field: TextField): string {
    match field
    case Name => a.name
    case Bio => a.bio
    case ImageUrl => a.imageUrl
    case LogoUrl => a.logoUrl
    case SoundcloudUsername => a.soundcloudUsername
  }

  /** The inputs seeded from an artist: each value or its fallback, and the links with
      `''` for a missing one. */
  function SeedFrom(a: Artist): (f: ProfileFields)
    ensures forall field :: GetText(f, field) == Or(RecordText(a, field), Fallback(field))
  {
    ProfileFields(Or(a.name, FallbackName), Or(a.bio, FallbackBio), Or(a.imageUrl, FallbackImageUrl),
      Or(a.logoUrl, ""), Or(a.soundcloudUsername, FallbackSoundcloudUsername), SeedLinks(a.socialLinks))
  }

  /** The link inputs seeded from an artist show each stored link, and `''` for a missing one. */
  lemma SeededLinks(a: Artist)
    ensures SeedFrom(a).links == SeedLinks(a.socialLinks)
    ensures forall p :: SeedFrom(a).links.Get(p) == OrDefault(a.socialLinks.Get(p), "")
  {
  }

  /** The inputs on first render, when the artist may not have arrived yet. */
  function InitialFields(artist: Option<Artist>): (f: ProfileFields)
    ensures artist.None? ==> (forall field :: GetText(f, field) == Fallback(field)) && f.links == NoLinks
    ensures artist.Some? ==> f == SeedFrom(artist.value)
  {
    match artist
    case None => ProfileFields(FallbackName, FallbackBio, FallbackImageUrl, "", FallbackSoundcloudUsername, NoLinks)
    case Some(a) => SeedFrom(a)
  }

  /** The effect that re-seeds the inputs whenever the artist changes; a missing artist
      leaves them as they are. */
  function Reseed(f: ProfileFields, artist: Option<Artist>): (r: ProfileFields)
    ensures artist.None? ==> r == f
    ensures artist.Some? ==> r == InitialFields(artist)
  {
    if artist.Some? then SeedFrom(artist.value) else f
  }

  /** The artist hook's stand-in record does not carry the editor's own fallbacks: its name
      starts with a Cyrillic letter and its biography is the longer one, and the editor
      shows the record's texts. */
  lemma StandInArtistDiffersFromFallbacks(now: string)
    ensures InitialFields(Some(UseArtist.DefaultArtist(now))).name == UseArtist.DefaultArtist(now).name
    ensures InitialFields(Some(UseArtist.DefaultArtist(now))).name != FallbackName
    ensures InitialFields(Some(UseArtist.DefaultArtist(now))).bio != FallbackBio
  {
    var a := UseArtist.DefaultArtist(now);
    assert a.name[0] != FallbackName[0];
    assert |a.bio| != |FallbackBio|;
  }

  /** `handleInputChange` */
  function SetText(f: ProfileFields, field: TextField, value: string): (r: ProfileFields)
    ensures GetText(r, field) == value
    ensures forall other :: other != field ==> GetText(r, other) == GetText(f, other)
    ensures r.links == f.links
  {
    match field
    case Name => f.(name := value)
    case Bio => f.(bio := value)
    case ImageUrl => f.(imageUrl := value)
    case LogoUrl => f.(logoUrl := value)
    case SoundcloudUsername => f.(soundcloudUsername := value)
  }

  /** `handleSocialLinkChange` */
  function SetSocial(f: ProfileFields, p: Platform, value: string): (r: ProfileFields)
    ensures r.links.Get(p) == value
    ensures forall q :: q != p ==> r.links.Get(q) == f.links.Get(q)
    ensures forall field :: GetText(r, field) == GetText(f, field)
  {
    f.(links := SetLink(f.links, p, value))
  }

  /** The row a save writes: the loaded artist's id, or `default` without one. */
  function SaveTarget(artist: Option<Artist>): (id: string)
    ensures id != ""
    ensures artist.Some? && artist.value.id != "" ==> id == artist.value.id
    ensures artist.None? || artist.value.id == "" ==> id == FallbackId
  {
    if artist.Some? then Or(artist.value.id, FallbackId) else FallbackId
  }

  /** The effect of the save on one artist row: the target row takes every input and the
      new `updated_at`; other rows stay. */
  function SaveRow(row: Artist, target: string, f: ProfileFields, now: string): (r: Artist)
    ensures row.id != target ==> r == row
    ensures row.id == target ==>
      (forall field :: RecordText(r, field) == GetText(f, field))
      && r.socialLinks == StoredLinks(f.links) && r.updatedAt == now
      && r.id == row.id && r.createdAt == row.createdAt
  {
    if row.id == target then
      row.(name := f.name, bio := f.bio, imageUrl := f.imageUrl, logoUrl := f.logoUrl,
           soundcloudUsername := f.soundcloudUsername, socialLinks := StoredLinks(f.links), updatedAt := now)
    else row
  }

  /** Saving and re-seeding from the saved row gives the inputs back, as long as no text
      input with a fallback was left empty; an emptied one comes back as its fallback. */
  lemma SaveThenReseed(row: Artist, f: ProfileFields, now: string)
    ensures var g := SeedFrom(SaveRow(row, row.id, f, now));
      g.links == f.links
      && forall field :: GetText(g, field) == (if GetText(f, field) != "" then GetText(f, field) else Fallback(field))
  {
    LinksRoundTrip(f.links, row.socialLinks);
  }

  const SavedNotice := "✅ Профіль успішно оновлено!"

  /** The editor's own state. */
  datatype Editor = Editor(fields: ProfileFields, isUpdating: bool, notice: string)

  /** `handleSave`: the update it sends (target id and inputs) and the editor afterwards. */
  function HandleSave(e: Editor, artist: Option<Artist>, outcome: WriteOutcome<()>): (r: (string, Editor))
    ensures r.0 == SaveTarget(artist)
    ensures !r.1.isUpdating && r.1.fields == e.fields
    ensures IsSuccessNotice(r.1.notice) <==> outcome.Written?
    ensures r.1.notice == (if outcome.Written? then SavedNotice else SaveFailedNotice)
  {
    (SaveTarget(artist), e.(isUpdating := false, notice := SaveNotice(outcome.Written?, SavedNotice)))
  }

  /** When the artist could not be loaded and no row has the id `default`, a save that the
      backend accepts reports success yet changes no row. */
  lemma SaveWithoutArtistChangesNothing(rows: seq<Artist>, e: Editor, now: string)
    requires forall i :: 0 <= i < |rows| ==> rows[i].id != FallbackId
    ensures var (target, e') := HandleSave(e, None, Written(()));
      IsSuccessNotice(e'.notice)
      && forall i :: 0 <= i < |rows| ==> SaveRow(rows[i], target, e.fields, now) == rows[i]
  {
  }

  /** The image previews: one for each URL input that is not empty. */
  function Previews(f: ProfileFields): (r: (Option<string>, Option<string>))
    ensures r.0.Some? <==> f.imageUrl != ""
    ensures r.1.Some? <==> f.logoUrl != ""
    ensures r.0.Some? ==> r.0.value == f.imageUrl
    ensures r.1.Some? ==> r.1.value == f.logoUrl
  {
    (if f.imageUrl != "" then Some(f.imageUrl) else None, if f.logoUrl != "" then Some(f.logoUrl) else None)
  }

  /** With no artist loaded the profile photo is previewed (its fallback URL) and the logo
      is not. */
  lemma FallbackPreviews()
    ensures Previews(InitialFields(None)) == (Some(FallbackImageUrl), None)
  {
  }

  /** Once an artist is loaded the photo is always previewed (the stored URL, or the
      fallback when it is empty), and the logo is previewed exactly when the artist has one. */
  lemma SeededPreviews(a: Artist)
    ensures Previews(SeedFrom(a)).0 == Some(Or(a.imageUrl, FallbackImageUrl))
    ensures Previews(SeedFrom(a)).1.Some? <==> a.logoUrl != ""
    ensures a.logoUrl != "" ==> Previews(SeedFrom(a)).1 == Some(a.logoUrl)
  {
  }
}

=== FILE: records.dfy ===
/** The records mirrored from the backend tables (artists, tracks, blog_posts,
    site_stats, contact_info). Timestamps are opaque ISO-8601 strings. */
module Records {
  import opened Common

  /** The social platforms the site knows about. */
  datatype Platform = Instagram | Twitter | YouTube | Facebook

  const AllPlatforms: set<Platform> := {Instagram, Twitter, YouTube, Facebook}

  /** A `social_links` object in which every key is optional. */
  datatype SocialLinks = SocialLinks(
    instagram: Option<string>, twitter: Option<string>, youtube: Option<string>, facebook: Option<string>)
  {
    function Get(p: Platform): Option<string> {
      match p
      case Instagram => instagram
      case Twitter => twitter
      case YouTube => youtube
      case Facebook => facebook
    }
  }

  datatype Artist = Artist(
    id: string, name: string, bio: string, imageUrl: string, logoUrl: string,
    soundcloudUsername: string, socialLinks: SocialLinks, createdAt: string, updatedAt: string)

  datatype Track = Track(
    id: string, title: string, soundcloudUrl: string, soundcloudId: string,
    imageUrl: Option<string>, description: Option<string>, orderIndex: int, audioUrl: Option<string>)

  datatype BlogPost = BlogPost(
    id: string, title: string, content: string, excerpt: string, imageUrl: Option<string>,
    published: bool, createdAt: string, updatedAt: string)

  /** A row of site_stats; `caption` is the `label` column (`label` is a Dafny keyword). */
  datatype SiteStats = SiteStats(
    id: string, caption: string, value: string, iconName: string, orderIndex: int,
    createdAt: string, updatedAt: string)

  datatype ContactInfo = ContactInfo(
    id: string, sectionType: string, title: string, subtitle: string, contactTitle: string,
    email: string, phone: string, location: string, socialTitle: string, socialLinks: SocialLinks,
    formTitle: string, formButtonText: string, createdAt: string, updatedAt: string)
}

=== FILE: soundcloud_player.dfy ===
/** The SoundCloud player: which tracks it shows, and the embed URL it builds for each.
    The URL is the fixed player prefix, the percent-encoded track URL as the `url`
    parameter, then a fixed parameter suffix. */
module SoundCloudPlayer {
  import opened Common
  import opened Strings
  import opened Uri
  import opened Records
  import UseTracks

  const PlayerPrefix := "https://w.soundcloud.com/player/?url="
  const PlayerParams := "&color=%23a855f7&auto_play=false&hide_related=false&show_comments=true&show_user=true&show_reposts=false&show_teaser=true&visual=true"
  const TrackApiPrefix := "https://api.soundcloud.com/tracks/"

  /** The URL handed to the player: a full SoundCloud URL as it is, anything else as a track
      id appended to the tracks API address. */
  function EmbedTarget(url: string): string {
    if Contains(url, "soundcloud.com/") then url else TrackApiPrefix + url
  }

  /** `getSoundCloudEmbedUrl`. Both branches share one prefix and one suffix. */
  function EmbedUrl(url: string): (r: string)
    ensures r == PlayerPrefix + Encode(EmbedTarget(url)) + PlayerParams
  {
    if Contains(url, "soundcloud.com/") then
      var encoded := Encode(url);
      PlayerPrefix + encoded + PlayerParams
    else
      var encoded := Encode(TrackApiPrefix + url);
      PlayerPrefix + encoded + PlayerParams
  }

  /** The `url` parameter of the embed URL holds no raw `&`, `=`, `?` or `#`, so whatever the
      track URL contains it cannot add or override a player parameter; and it percent-decodes
      to exactly the UTF-8 bytes of the target URL. */
  lemma EmbedParameterIsolated(url: string)
    ensures exists e :: (EmbedUrl(url) == PlayerPrefix + e + PlayerParams
      && '&' !in e && '=' !in e && '?' !in e && '#' !in e
      && DecodeBytes(e) == Utf8String(EmbedTarget(url)))
  {
    var e := Encode(EmbedTarget(url));
    EncodeHasNoDelimiters(EmbedTarget(url));
    DecodeEncode(EmbedTarget(url));
  }

  /** The player's filter: a non-empty, not all-whitespace URL that mentions
      "soundcloud.com" or is a run of digits. */
  predicate IsPlayable(t: Track) {
    var u := t.soundcloudUrl;
    u != "" && Trim(u) != "" && (Contains(u, "soundcloud.com") || AllDigits(u))
  }

  /** The presence and trim tests add nothing: the filter keeps a track exactly when its URL
      mentions "soundcloud.com" or is a run of digits. */
  lemma IsPlayableSimplified(t: Track)
    ensures IsPlayable(t) <==> Contains(t.soundcloudUrl, "soundcloud.com") || AllDigits(t.soundcloudUrl)
  {
    var u := t.soundcloudUrl;
    TrimEmptyIff(u);
    if Contains(u, "soundcloud.com") {
      var i :| 0 <= i <= |u| - 14 && OccursAt(u, "soundcloud.com", i);
      assert u[i] == u[i..i + 14][0];
      SomeNonWhitespace(u, i);
    } else if AllDigits(u) {
      SomeNonWhitespace(u, 0);
    }
  }

  lemma OccursBetween(pre: string, mid: string, post: string)
    ensures OccursAt(pre + mid + post, mid, |pre|)
  {
    var u := pre + mid + post;
    assert u[|pre|..|pre| + |mid|] == mid;
  }

  lemma SomeNonWhitespace(u: string, i: int)
    requires 0 <= i < |u| && (u[i] == 's' || '0' <= u[i] <= '9')
    ensures u != [] && !AllWhitespace(u)
  {
    assert !IsWhitespace(u[i]);
  }

  /** `validTracks`: the playable tracks in their original order. */
  function PlayableTracks(ts: seq<Track>): (r: seq<Track>)
    ensures forall t :: t in r <==> t in ts && IsPlayable(t)
    ensures IsSubsequence(r, ts)
    ensures |r| <= |ts|
  {
    if ts == [] then []
    else if IsPlayable(ts[0]) then [ts[0]] + PlayableTracks(ts[1..])
    else PlayableTracks(ts[1..])
  }

  /** The filter keeps every playable track as many times as the input holds it, and
      drops every other track. */
  lemma {:induction false} PlayableTracksCounts(ts: seq<Track>)
    ensures forall t :: multiset(PlayableTracks(ts))[t] == (if IsPlayable(t) then multiset(ts)[t] else 0)
  {
    if ts != [] {
      PlayableTracksCounts(ts[1..]);
      assert ts == [ts[0]] + ts[1..];
      assert multiset(ts) == multiset{ts[0]} + multiset(ts[1..]);
    }
  }

  /** A URL that names soundcloud.com without a '/' after it passes the filter but is
      embedded through the track-id branch, as if it were an id. */
  lemma SlashlessUrlTreatedAsId(t: Track)
    requires Contains(t.soundcloudUrl, "soundcloud.com") && !Contains(t.soundcloudUrl, "soundcloud.com/")
    ensures IsPlayable(t)
    ensures EmbedTarget(t.soundcloudUrl) == TrackApiPrefix + t.soundcloudUrl
  {
    IsPlayableSimplified(t);
  }

  /** A track whose URL has "soundcloud.com/" inside is playable and embedded as it is. */
  lemma FullUrlPlayable(t: Track, pre: string, post: string)
    requires t.soundcloudUrl == pre + "soundcloud.com/" + post
    ensures IsPlayable(t) && EmbedTarget(t.soundcloudUrl) == t.soundcloudUrl
  {
    var u := t.soundcloudUrl;
    assert u == pre + "soundcloud.com" + ("/" + post);
    OccursBetween(pre, "soundcloud.com/", post);
    OccursBetween(pre, "soundcloud.com", "/" + post);
    IsPlayableSimplified(t);
  }

  /** Both mock tracks of `useTracks` pass the filter, so the fallback list is shown whole. */
  lemma MockTracksPlayable()
    ensures PlayableTracks(UseTracks.MockTracks()) == UseTracks.MockTracks()
  {
    var ts := UseTracks.MockTracks();
    FirstMockPlayable(ts[0]);
    SecondMockPlayable(ts[1]);
    assert ts == [ts[0], ts[1]];
    PlayablePair(ts[0], ts[1]);
  }

  /** Both mock tracks embed through the full-URL branch. */
  lemma MockTracksEmbedAsUrls()
    ensures forall i :: 0 <= i < |UseTracks.MockTracks()| ==>
      EmbedTarget(UseTracks.MockTracks()[i].soundcloudUrl) == UseTracks.MockTracks()[i].soundcloudUrl
  {
    var ts := UseTracks.MockTracks();
    assert |ts| == 2;
    forall i | 0 <= i < |ts| ensures EmbedTarget(ts[i].soundcloudUrl) == ts[i].soundcloudUrl {
      if i == 0 { FirstMockPlayable(ts[0]); } else { SecondMockPlayable(ts[1]); }
    }
  }

  lemma FirstMockPlayable(t: Track)
    requires t.soundcloudUrl == UseTracks.MockUrl1
    ensures IsPlayable(t) && EmbedTarget(t.soundcloudUrl) == t.soundcloudUrl
  {
    FullUrlPlayable(t, "https://", "example/midnight-dreams");
  }

  lemma SecondMockPlayable(t: Track)
    requires t.soundcloudUrl == UseTracks.MockUrl2
    ensures IsPlayable(t) && EmbedTarget(t.soundcloudUrl) == t.soundcloudUrl
  {
    FullUrlPlayable(t, "https://", "example/electric-pulse");
  }

  lemma PlayablePair(a: Track, b: Track)
    requires IsPlayable(a) && IsPlayable(b)
    ensures PlayableTracks([a, b]) == [a, b]
  {
    var tail := PlayableTracks([b]);
    assert tail == [b] by {
      assert [b][1..] == [];
    }
    assert [a, b][1..] == [b];
  }
}

=== FILE: stats_management.dfy ===
/** The admin panel's statistics editor: the icon table, the "add" form with its
    required fields and default position, inline editing of one row at a time, deletion
    behind a confirmation, and the up/down buttons that renumber a row. Every write goes
    through the `useStats` mutators; alerts are returned as values. */
module StatsManagement {
  import opened Common
  import opened Records
  import opened Fetch
  import opened UseStats

  /** The icon components a statistic can be drawn with. */
  datatype Icon = Music | Users | Star | Play | TrendingUp | BarChart3

  /** The keys of the icon table, in the order the icon picker offers them. */
  const IconKeys: seq<string> := ["music", "users", "star", "play", "trending", "chart"]

  /** The icon each key stands for, index by index with `IconKeys`. */
  const IconValues: seq<Icon> := [Music, Users, Star, Play, TrendingUp, BarChart3]

  /** The icon a row is drawn with: its key's entry in the table, and the chart icon for
      any name the table does not know. */
  function IconFor(name: string): (icon: Icon)
    ensures forall k :: 0 <= k < |IconKeys| && IconKeys[k] == name ==> icon == IconValues[k]
    ensures name !in IconKeys ==> icon == BarChart3
  {
    if name == "music" then Music
    else if name == "users" then Users
    else if name == "star" then Star
    else if name == "play" then Play
    else if name == "trending" then TrendingUp
    else BarChart3
  }

  /** The picker offers exactly the table's keys, no two alike, and each resolves to a
      different icon: whatever is picked is drawn with the icon that was shown for it. */
  lemma PickerMatchesIconTable()
    ensures |IconKeys| == |IconValues| == 6
    ensures forall i, j :: 0 <= i < j < |IconKeys| ==> IconKeys[i] != IconKeys[j]
    ensures forall i, j :: 0 <= i < j < |IconKeys| ==> IconFor(IconKeys[i]) != IconFor(IconKeys[j])
  {
  }

  /** Every default statistic names an icon from the table. */
  lemma DefaultStatsHaveKnownIcons(now: string)
    ensures forall k :: 0 <= k < |DefaultStats(now)| ==> DefaultStats(now)[k].iconName in IconKeys
    ensures forall k :: 0 <= k < |DefaultStats(now)| ==> IconFor(DefaultStats(now)[k].iconName) == IconValues[k]
  {
    DefaultStatsOrdered(now);
    var d := DefaultStats(now);
    forall k | 0 <= k < |d| ensures d[k].iconName == IconKeys[k] {
    }
  }

  /** The "add" form. An empty number field parses to `NaN`, written `None`. */
  datatype Draft = Draft(caption: string, value: string, iconName: string, orderIndex: Option<int>)

  const EmptyDraft := Draft("", "", "music", Some(0))

  /** The position a new statistic is created at: the typed number unless it is `0` or
      `NaN`, and otherwise one past the current number of rows. */
  function EffectiveOrder(typed: Option<int>, rowCount: nat): (order: int)
    ensures order != 0
    ensures typed.Some? && typed.value != 0 ==> order == typed.value
    ensures (typed.None? || typed.value == 0) ==> order == rowCount + 1
  {
    if typed.Some? && typed.value != 0 then typed.value else rowCount + 1
  }

  /** A statistic created with no typed position goes after every row when the rows are
      numbered within `1..n`, as the defaults and the up/down buttons keep them. */
  lemma DefaultPositionIsLast(rows: seq<SiteStats>, typed: Option<int>)
    requires typed.None? || typed.value == 0
    requires forall i :: 0 <= i < |rows| ==> rows[i].orderIndex <= |rows|
    ensures forall i :: 0 <= i < |rows| ==> rows[i].orderIndex < EffectiveOrder(typed, |rows|)
  {
  }

  /** The editor's own state. */
  datatype Ui = Ui(editingId: Option<string>, editData: StatPatch, isAdding: bool, operationLoading: bool, draft: Draft)

  const NoEdit := StatPatch(None, None, None, None)

  function InitialUi(): Ui {
    Ui(None, NoEdit, false, false, EmptyDraft)
  }

  /** What a handler did: the editor afterwards, the mutator call it made (if any), the
      hook afterwards, and the alert it raised (if any). */
  datatype Step = Step(ui: Ui, call: Option<Call>, hook: StatsHook, alert: Option<string>)

  const AddRequired := "Назва та значення обов'язкові"
  const SaveFailedPrefix := "Помилка збереження статистики: "
  const CreateFailedPrefix := "Помилка створення статистики: "
  const DeleteFailedPrefix := "Помилка видалення статистики: "
  const MoveFailedPrefix := "Помилка переміщення: "

  /** A finished mutator call: the hook it leaves, and an alert with `prefix` on failure. */
  function Finish(ui: Ui, c: Call, prefix: string): (s: Step)
    ensures s.call == Some(c) && s.hook == c.hook && !s.ui.operationLoading
    ensures s.alert.Some? <==> c.result.Failed?
    ensures c.result.Failed? ==> s.alert == Some(prefix + c.result.error)
  {
    Step(ui.(operationLoading := false), Some(c), c.hook,
         if c.result.Failed? then Some(prefix + c.result.error) else None)
  }

  /** The patch an edit starts from: the row's own columns. */
  function RowPatch(stat: SiteStats): StatPatch {
    StatPatch(Some(stat.caption), Some(stat.value), Some(stat.iconName), Some(stat.orderIndex))
  }

  /** `handleEdit`: the row becomes the one being edited, seeded with its columns. */
  function Edit(ui: Ui, stat: SiteStats): (r: Ui)
    ensures r.editingId == Some(stat.id)
    ensures r.editData == RowPatch(stat)
    ensures r.isAdding == ui.isAdding && r.draft == ui.draft && r.operationLoading == ui.operationLoading
  {
    ui.(editingId := Some(stat.id), editData := RowPatch(stat))
  }

  /** A keystroke in the inline editor. */
  datatype EditInput = EditCaption(caption: string) | EditValue(value: string) | EditIcon(iconName: string) | EditOrder(orderIndex: int)

  /** The edit form's `onChange` handlers: one column of the patch changes. */
  function Type(ui: Ui, input: EditInput): (r: Ui)
    ensures r.editingId == ui.editingId && r.isAdding == ui.isAdding && r.draft == ui.draft
    ensures input.EditCaption? ==> r.editData == ui.editData.(caption := Some(input.caption))
    ensures input.EditValue? ==> r.editData == ui.editData.(value := Some(input.value))
    ensures input.EditIcon? ==> r.editData == ui.editData.(iconName := Some(input.iconName))
    ensures input.EditOrder? ==> r.editData == ui.editData.(orderIndex := Some(input.orderIndex))
  {
    var p := ui.editData;
    ui.(editData := match input
      case EditCaption(c) => p.(caption := Some(c))
      case EditValue(v) => p.(value := Some(v))
      case EditIcon(i) => p.(iconName := Some(i))
      case EditOrder(o) => p.(orderIndex := Some(o)))
  }

  /** `handleCancel`: leaves edit mode and drops the patch. */
  function Cancel(ui: Ui): (r: Ui)
    ensures r.editingId.None? && r.editData == NoEdit
    ensures r.isAdding == ui.isAdding && r.draft == ui.draft && r.operationLoading == ui.operationLoading
  {
    ui.(editingId := None, editData := NoEdit)
  }

  /** Starting an edit and cancelling it leaves no trace, whatever was typed in between. */
  lemma EditThenCancel(ui: Ui, stat: SiteStats, inputs: seq<EditInput>)
    requires ui.editingId.None? && ui.editData == NoEdit
    ensures Cancel(TypeAll(Edit(ui, stat), inputs)) == ui
  {
    TypeAllKeepsRest(Edit(ui, stat), inputs);
  }

  function TypeAll(ui: Ui, inputs: seq<EditInput>): Ui
    decreases |inputs|
  {
    if inputs == [] then ui else TypeAll(Type(ui, inputs[0]), inputs[1..])
  }

  lemma {:induction false} TypeAllKeepsRest(ui: Ui, inputs: seq<EditInput>)
    ensures TypeAll(ui, inputs).(editData := ui.editData) == ui
    decreases |inputs|
  {
    if inputs != [] {
      TypeAllKeepsRest(Type(ui, inputs[0]), inputs[1..]);
    }
  }

  /** `handleSave`: sends the patch for `id`; on success leaves edit mode, on failure
      keeps the edit open and alerts. */
  function Save(ui: Ui, h: StatsHook, id: string, now: string, outcome: WriteOutcome<()>): (s: Step)
    ensures s.call.Some? && s.call.value.write == Update(id, ui.editData, now)
    ensures outcome.Written? ==> s.ui.editingId.None? && s.ui.editData == NoEdit && s.alert.None?
    ensures outcome.WriteFailed? ==> (s.ui.editingId == ui.editingId && s.ui.editData == ui.editData
      && s.alert == Some(SaveFailedPrefix + ThrownMessage(outcome.thrown)))
    ensures !s.ui.operationLoading && s.ui.draft == ui.draft && s.ui.isAdding == ui.isAdding
  {
    var c := UpdateStat(h, id, ui.editData, now, outcome);
    var ui' := if c.result.Succeeded? then Cancel(ui) else ui;
    Finish(ui', c, SaveFailedPrefix)
  }

  /** Saving an untouched edit writes the row's own values back: only `updated_at`
      changes in the table. */
  lemma SaveUntouchedEditKeepsRow(rows: seq<SiteStats>, k: int, ui: Ui, now: string)
    requires 0 <= k < |rows|
    ensures var r := ApplyUpdate(rows, rows[k].id, Edit(ui, rows[k]).editData, now);
      r[k] == rows[k].(updatedAt := now)
  {
  }

  /** `handleAdd`: refuses a draft without a caption or value; otherwise creates the
      statistic at its effective position and, on success, closes and resets the form. */
  function Add(ui: Ui, h: StatsHook, now: string, outcome: WriteOutcome<SiteStats>): (s: Step)
    ensures s.call.Some? <==> ui.draft.caption != "" && ui.draft.value != ""
    ensures s.call.None? ==> s.ui == ui && s.hook == h && s.alert == Some(AddRequired)
    ensures s.call.Some? ==> (s.call.value.write.Insert?
      && s.call.value.write.row.caption == ui.draft.caption
      && s.call.value.write.row.value == ui.draft.value
      && s.call.value.write.row.iconName == ui.draft.iconName
      && s.call.value.write.row.orderIndex == EffectiveOrder(ui.draft.orderIndex, |h.list.items|))
    ensures s.call.Some? && outcome.Written? ==> !s.ui.isAdding && s.ui.draft == EmptyDraft && s.alert.None?
    ensures s.call.Some? && outcome.WriteFailed? ==> (s.ui.isAdding == ui.isAdding && s.ui.draft == ui.draft
      && s.alert == Some(CreateFailedPrefix + ThrownMessage(outcome.thrown)))
  {
    var d := ui.draft;
    if d.caption == "" || d.value == "" then
      Step(ui, None, h, Some(AddRequired))
    else
      var row := NewStat(d.caption, d.value, d.iconName, EffectiveOrder(d.orderIndex, |h.list.items|));
      var c := CreateStat(h, row, now, outcome);
      var ui' := if c.result.Succeeded? then ui.(isAdding := false, draft := EmptyDraft) else ui;
      Finish(ui', c, CreateFailedPrefix)
  }

  /** `handleDelete`: nothing happens unless the confirmation dialog was accepted. */
  function Delete(ui: Ui, h: StatsHook, id: string, confirmed: bool, outcome: WriteOutcome<()>): (s: Step)
    ensures s.call.Some? <==> confirmed
    ensures !confirmed ==> s.ui == ui && s.hook == h && s.alert.None?
    ensures confirmed ==> (s.call.value.write == Remove(id)
      && (s.alert.Some? <==> outcome.WriteFailed?)
      && (outcome.WriteFailed? ==> s.alert == Some(DeleteFailedPrefix + ThrownMessage(outcome.thrown))))
  {
    if !confirmed then Step(ui, None, h, None)
    else Finish(ui, DeleteStat(h, id, outcome), DeleteFailedPrefix)
  }

  /** `moveUp`: a row already at position 1 or below does not move; otherwise it asks for
      the position one lower. */
  function MoveUp(ui: Ui, h: StatsHook, stat: SiteStats, now: string, outcome: WriteOutcome<()>): (s: Step)
    ensures s.call.Some? <==> stat.orderIndex > 1
    ensures s.call.None? ==> s.ui == ui && s.hook == h && s.alert.None?
    ensures s.call.Some? ==> (s.call.value.write == Update(stat.id, ReorderPatch(stat.orderIndex - 1), now)
      && s.call.value.write.patch.orderIndex.value >= 1)
    ensures s.call.Some? && outcome.WriteFailed? ==> s.alert == Some(MoveFailedPrefix + ThrownMessage(outcome.thrown))
  {
    if stat.orderIndex > 1 then Finish(ui, ReorderStat(h, stat.id, stat.orderIndex - 1, now, outcome), MoveFailedPrefix)
    else Step(ui, None, h, None)
  }

  /** `moveDown`: always asks for the position one higher. */
  function MoveDown(ui: Ui, h: StatsHook, stat: SiteStats, now: string, outcome: WriteOutcome<()>): (s: Step)
    ensures s.call.Some? && s.call.value.write == Update(stat.id, ReorderPatch(stat.orderIndex + 1), now)
    ensures outcome.WriteFailed? ==> s.alert == Some(MoveFailedPrefix + ThrownMessage(outcome.thrown))
    ensures outcome.Written? ==> s.alert.None? && s.hook.refetch == h.refetch + 1
  {
    Finish(ui, ReorderStat(h, stat.id, stat.orderIndex + 1, now, outcome), MoveFailedPrefix)
  }

  /** The table after a move: the moved row's position is one lower (up) or one higher
      (down) and every other row is as it was. */
  lemma MovesShiftOnePosition(rows: seq<SiteStats>, k: int, ui: Ui, h: StatsHook, now: string, outcome: WriteOutcome<()>)
    requires 0 <= k < |rows|
    requires forall i :: 0 <= i < |rows| && i != k ==> rows[i].id != rows[k].id
    ensures var up := MoveUp(ui, h, rows[k], now, outcome);
      up.call.Some? ==>
        var r := ApplyUpdate(rows, rows[k].id, up.call.value.write.patch, now);
        r[k].orderIndex == rows[k].orderIndex - 1 >= 1 && forall i :: 0 <= i < |rows| && i != k ==> r[i] == rows[i]
    ensures var down := MoveDown(ui, h, rows[k], now, outcome);
      var r := ApplyUpdate(rows, rows[k].id, down.call.value.write.patch, now);
      r[k].orderIndex == rows[k].orderIndex + 1 && forall i :: 0 <= i < |rows| && i != k ==> r[i] == rows[i]
  {
    ReorderChangesOnlyOrder(rows, rows[k].id, rows[k].orderIndex - 1, now);
    ReorderChangesOnlyOrder(rows, rows[k].id, rows[k].orderIndex + 1, now);
  }

  /** Whether a row's up and down buttons are enabled, by its place in the list. */
  function MoveButtons(index: nat, rowCount: nat): (enabled: (bool, bool)) {
    (index != 0, index != rowCount - 1)
  }

  /** On a list numbered `1..n` in order, such as the defaults, the up button is enabled
      exactly on the rows `moveUp` would move, and the down button is disabled on the last
      row only. */
  lemma ButtonsMatchMoveGuard(rows: seq<SiteStats>, k: nat)
    requires k < |rows|
    requires forall i :: 0 <= i < |rows| ==> rows[i].orderIndex == i + 1
    ensures MoveButtons(k, |rows|).0 <==> rows[k].orderIndex > 1
    ensures !MoveButtons(k, |rows|).1 <==> rows[k].orderIndex == |rows|
  {
  }
}

=== FILE: strings.dfy ===
/** String primitives of the JavaScript runtime that the modelled code relies on:
    the `\s` character class (which is also the set `String.prototype.trim` strips),
    `includes`, `startsWith`, `trim`, `toLowerCase`, `replace(/\s/g, '')`, `/^\d+$/`,
    the UTF-16 `length` that zod's `.min(n)` measures, and the contact function's
    email regular expression. Strings are sequences of Unicode scalar values. */
module Strings {
  import opened Common

  /** A code point in the JavaScript WhiteSpace or LineTerminator sets. */
  predicate IsWhitespace(c: char) {
    || c == '\t' || c == '\n' || c == '\U{000B}' || c == '\U{000C}' || c == '\r' || c == ' '
    || c == '\U{00A0}' || c == '\U{1680}' || ('\U{2000}' <= c <= '\U{200A}')
    || c == '\U{2028}' || c == '\U{2029}' || c == '\U{202F}' || c == '\U{205F}'
    || c == '\U{3000}' || c == '\U{FEFF}'
  }

  predicate NoWhitespace(s: string) {
    forall i :: 0 <= i < |s| ==> !IsWhitespace(s[i])
  }

  predicate AllWhitespace(s: string) {
    forall i :: 0 <= i < |s| ==> IsWhitespace(s[i])
  }

  /** `s.includes(sub)` */
  predicate Contains(s: string, sub: string) {
    exists i :: 0 <= i <= |s| - |sub| && OccursAt(s, sub, i)
  }

  /** `sub` appears in `s` starting at index `i`. */
  predicate OccursAt(s: string, sub: string, i: int) {
    0 <= i <= |s| - |sub| && s[i..i + |sub|] == sub
  }

  /** `s.startsWith(p)` */
  predicate StartsWith(s: string, p: string) {
    |p| <= |s| && s[..|p|] == p
  }

  /** Containing a one-character string is membership of that character. */
  lemma ContainsChar(s: string, c: char)
    ensures Contains(s, [c]) <==> c in s
  {
    if c in s {
      var i :| 0 <= i < |s| && s[i] == c;
      assert OccursAt(s, [c], i);
    }
    if Contains(s, [c]) {
      var i :| 0 <= i <= |s| - 1 && OccursAt(s, [c], i);
      assert s[i..i + 1][0] == s[i];
    }
  }

  /** Starting with a one-character string is a test of the first character. */
  lemma StartsWithChar(s: string, c: char)
    ensures StartsWith(s, [c]) <==> |s| > 0 && s[0] == c
  {
    if |s| > 0 && s[0] == c {
      assert s[..1] == [c];
    }
  }

  /** `s.trimStart()`: drops the leading whitespace. */
  function TrimStart(s: string): (r: string)
    ensures |r| <= |s| && r == s[|s| - |r|..]
    ensures AllWhitespace(s[..|s| - |r|])
    ensures r == [] || !IsWhitespace(r[0])
  {
    if |s| > 0 && IsWhitespace(s[0]) then
      var r := TrimStart(s[1..]);
      assert s[..|s| - |r|] == [s[0]] + s[1..][..|s| - 1 - |r|];
      r
    else s
  }

  /** `s.trimEnd()`: drops the trailing whitespace. */
  function TrimEnd(s: string): (r: string)
    ensures |r| <= |s| && r == s[..|r|]
    ensures AllWhitespace(s[|r|..])
    ensures r == [] || !IsWhitespace(r[|r| - 1])
  {
    if |s| > 0 && IsWhitespace(s[|s| - 1]) then
      var r := TrimEnd(s[..|s| - 1]);
      assert s[|r|..] == s[..|s| - 1][|r|..] + [s[|s| - 1]];
      r
    else s
  }

  /** How many whitespace characters `s.trimStart()` drops. */
  function LeadingWhitespace(s: string): nat {
    |s| - |TrimStart(s)|
  }

  /** `s.trim()`: the infix of `s` that neither starts nor ends with whitespace, obtained
      by removing only whitespace: the leading run, then the trailing run. */
  function Trim(s: string): (r: string)
    ensures var k := LeadingWhitespace(s);
      k + |r| <= |s| && r == s[k..k + |r|] && AllWhitespace(s[..k]) && AllWhitespace(s[k + |r|..])
    ensures r == [] || (!IsWhitespace(r[0]) && !IsWhitespace(r[|r| - 1]))
  {
    var t := TrimStart(s);
    var r := TrimEnd(t);
    TrimParts(s, t, r);
    r
  }

  /** Dropping a whitespace prefix of `s` (leaving `t`), then a whitespace suffix of `t`
      (leaving `r`), leaves an infix of `s` between two whitespace runs. */
  lemma TrimParts(s: string, t: string, r: string)
    requires |t| <= |s| && t == s[|s| - |t|..] && AllWhitespace(s[..|s| - |t|])
    requires |r| <= |t| && r == t[..|r|] && AllWhitespace(t[|r|..])
    ensures var k := |s| - |t|;
      k + |r| <= |s| && r == s[k..k + |r|] && AllWhitespace(s[..k]) && AllWhitespace(s[k + |r|..])
  {
    var k := |s| - |t|;
    assert s[k + |r|..] == t[|r|..];
  }

  /** Trimming never changes a string without whitespace. */
  lemma TrimNoWhitespace(s: string)
    requires NoWhitespace(s)
    ensures Trim(s) == s
  {
    var r := Trim(s);
  }

  /** Trimming yields the empty string exactly when the input is all whitespace. */
  lemma TrimEmptyIff(s: string)
    ensures Trim(s) == [] <==> AllWhitespace(s)
  {
    var r := Trim(s);
    var k := LeadingWhitespace(s);
    if r == [] {
      forall i | 0 <= i < |s| ensures IsWhitespace(s[i]) {
        assert s[i] == s[..k][i];
      }
    }
  }

  /** ASCII part of `toLowerCase`. */
  function LowerChar(c: char): char {
    if 'A' <= c <= 'Z' then (c as int + 32) as char else c
  }

  /** `s.toLowerCase()` on the ASCII letters. */
  function ToLower(s: string): (r: string)
    ensures |r| == |s|
    ensures forall i :: 0 <= i < |s| ==> r[i] == LowerChar(s[i])
  {
    seq(|s|, i requires 0 <= i < |s| => LowerChar(s[i]))
  }

  /** Lowercasing neither adds nor removes whitespace, '@' or '.'. */
  lemma LowerKeepsShapeChars(s: string)
    ensures forall i :: 0 <= i < |s| ==>
      (IsWhitespace(ToLower(s)[i]) <==> IsWhitespace(s[i])) &&
      (ToLower(s)[i] == '@' <==> s[i] == '@') &&
      (ToLower(s)[i] == '.' <==> s[i] == '.')
  {
  }

  /** `s.replace(/\s/g, '')` */
  function RemoveWhitespace(s: string): (r: string)
    ensures NoWhitespace(r)
    ensures |r| <= |s|
    ensures r == [] <==> AllWhitespace(s)
    ensures NoWhitespace(s) ==> r == s
  {
    if s == [] then []
    else if IsWhitespace(s[0]) then RemoveWhitespace(s[1..])
    else [s[0]] + RemoveWhitespace(s[1..])
  }

  /** Removing whitespace keeps the other characters, each as often as it occurs and in
      their original order, and drops every whitespace character. */
  lemma {:induction false} RemoveWhitespaceKeepsRest(s: string)
    ensures IsSubsequence(RemoveWhitespace(s), s)
    ensures forall c :: multiset(RemoveWhitespace(s))[c] == (if IsWhitespace(c) then 0 else multiset(s)[c])
  {
    if s != [] {
      RemoveWhitespaceKeepsRest(s[1..]);
      assert s == [s[0]] + s[1..];
      assert multiset(s) == multiset{s[0]} + multiset(s[1..]);
    }
  }

  /** Removing whitespace works piece by piece: on a concatenation it is the concatenation
      of the two results. */
  lemma {:induction false} RemoveWhitespaceAppend(a: string, b: string)
    ensures RemoveWhitespace(a + b) == RemoveWhitespace(a) + RemoveWhitespace(b)
  {
    if a == [] {
      assert a + b == b;
    } else {
      assert (a + b)[0] == a[0] && (a + b)[1..] == a[1..] + b;
      RemoveWhitespaceAppend(a[1..], b);
      if !IsWhitespace(a[0]) {
        assert [a[0]] + RemoveWhitespace(a[1..]) + RemoveWhitespace(b)
          == [a[0]] + (RemoveWhitespace(a[1..]) + RemoveWhitespace(b));
      }
    }
  }

  /** On one character, removing whitespace keeps it exactly when it is not whitespace. */
  lemma RemoveWhitespaceChar(c: char)
    ensures RemoveWhitespace([c]) == if IsWhitespace(c) then [] else [c]
  {
    assert [c][1..] == [];
  }

  /** `/^\d+$/.test(s)`: one or more ASCII digits and nothing else. */
  predicate AllDigits(s: string) {
    |s| > 0 && forall i :: 0 <= i < |s| ==> '0' <= s[i] <= '9'
  }

  /** Code-point lexicographic order; on ISO-8601 UTC timestamps written in one format it
      is chronological order. */
  predicate LexLess(a: string, b: string) {
    if a == [] then b != []
    else b != [] && (a[0] < b[0] || (a[0] == b[0] && LexLess(a[1..], b[1..])))
  }

  /** Two strings that agree up to index `k` and differ there are ordered by that position. */
  lemma {:induction false} LexLessAt(a: string, b: string, k: nat)
    requires k < |a| && k < |b| && a[..k] == b[..k] && a[k] < b[k]
    ensures LexLess(a, b)
  {
    if k > 0 {
      assert a[0] == a[..k][0] == b[..k][0] == b[0];
      assert a[1..][..k - 1] == a[..k][1..] == b[..k][1..] == b[1..][..k - 1];
      LexLessAt(a[1..], b[1..], k - 1);
    }
  }

  /** `LexLess` is asymmetric. */
  lemma {:induction false} LexLessAsymmetric(a: string, b: string)
    requires LexLess(a, b)
    ensures !LexLess(b, a)
  {
    if a != [] && a[0] == b[0] {
      LexLessAsymmetric(a[1..], b[1..]);
    }
  }

  /** JavaScript `length`: code points above U+FFFF take two UTF-16 code units. */
  function Utf16Length(s: string): (n: nat)
    ensures |s| <= n <= 2 * |s|
  {
    if s == [] then 0
    else (if s[0] as int >= 0x10000 then 2 else 1) + Utf16Length(s[1..])
  }

  /** One run of `[^\s@]+`. */
  predicate EmailPart(s: string) {
    |s| > 0 && NoWhitespace(s) && '@' !in s
  }

  /** The strings matched by `/^[^\s@]+@[^\s@]+\.[^\s@]+$/`, stated as the regex reads. */
  ghost predicate MatchesEmailRegex(s: string) {
    exists a, b, c :: EmailPart(a) && EmailPart(b) && EmailPart(c) && s == a + "@" + b + "." + c
  }

  /** Position of the first `c` in `s`, or `|s|` when there is none. */
  function IndexOf(s: string, c: char): (r: nat)
    ensures r <= |s|
    ensures r < |s| ==> s[r] == c
    ensures c !in s[..r]
  {
    if s == [] then 0
    else if s[0] == c then 0
    else 1 + IndexOf(s[1..], c)
  }

  /** A '.' that is neither the first nor the last character. */
  predicate HasInnerDot(d: string) {
    exists j :: 0 < j < |d| - 1 && d[j] == '.'
  }

  /** The email check of the contact function, decided directly: no whitespace, exactly
      one '@' and not at the start, and a '.' strictly inside the part after the '@'. */
  predicate IsEmailShape(s: string) {
    var i := IndexOf(s, '@');
    && NoWhitespace(s)
    && 0 < i < |s|
    && '@' !in s[i + 1..]
    && HasInnerDot(s[i + 1..])
  }

  /** The direct decision procedure accepts exactly the strings the regular expression matches. */
  lemma EmailShapeMatchesRegex(s: string)
    ensures IsEmailShape(s) <==> MatchesEmailRegex(s)
  {
    if IsEmailShape(s) {
      EmailShapeIsRegexMatch(s);
    }
    if MatchesEmailRegex(s) {
      var a, b, c :| EmailPart(a) && EmailPart(b) && EmailPart(c) && s == a + "@" + b + "." + c;
      RegexMatchIsEmailShape(a, b, c);
    }
  }

  lemma EmailShapeIsRegexMatch(s: string)
    requires IsEmailShape(s)
    ensures MatchesEmailRegex(s)
  {
    var i := IndexOf(s, '@');
    var d := s[i + 1..];
    var j :| 0 < j < |d| - 1 && d[j] == '.';
    var a, b, c := s[..i], d[..j], d[j + 1..];
    assert d == b + "." + c;
    assert s == a + "@" + b + "." + c;
    NoWhitespaceSlice(s, 0, i);
    NoWhitespaceSlice(s, i + 1, |s|);
    NoWhitespaceSlice(d, 0, j);
    NoWhitespaceSlice(d, j + 1, |d|);
    assert '@' !in b && '@' !in c by {
      assert forall x :: x in b ==> x in d;
      assert forall x :: x in c ==> x in d;
    }
    assert EmailPart(a) && EmailPart(b) && EmailPart(c);
  }

  lemma RegexMatchIsEmailShape(a: string, b: string, c: string)
    requires EmailPart(a) && EmailPart(b) && EmailPart(c)
    ensures IsEmailShape(a + "@" + b + "." + c)
  {
    var s := a + "@" + b + "." + c;
    var d := b + "." + c;
    assert s == a + "@" + d;
    AtPosition(a, d);
    assert s[|a| + 1..] == d;
    assert d[|b|] == '.';
    NoWhitespaceAppend(b, ".");
    NoWhitespaceAppend(b + ".", c);
    NoWhitespaceAppend(a, "@");
    NoWhitespaceAppend(a + "@", d);
  }

  lemma NoWhitespaceSlice(s: string, lo: int, hi: int)
    requires NoWhitespace(s) && 0 <= lo <= hi <= |s|
    ensures NoWhitespace(s[lo..hi])
  {
    forall k | 0 <= k < hi - lo ensures !IsWhitespace(s[lo..hi][k]) {
      assert s[lo..hi][k] == s[lo + k];
    }
  }

  lemma NoWhitespaceAppend(x: string, y: string)
    requires NoWhitespace(x) && NoWhitespace(y)
    ensures NoWhitespace(x + y)
  {
    forall k | 0 <= k < |x + y| ensures !IsWhitespace((x + y)[k]) {
      if k >= |x| { assert (x + y)[k] == y[k - |x|]; }
    }
  }

  /** In `a + "@" + rest` with an '@'-free `a`, the first '@' sits right after `a`. */
  lemma {:induction false} AtPosition(a: string, rest: string)
    requires '@' !in a
    ensures IndexOf(a + "@" + rest, '@') == |a|
  {
    if a != [] {
      assert (a + "@" + rest)[1..] == a[1..] + "@" + rest;
      AtPosition(a[1..], rest);
    }
  }
}

=== FILE: uri.dfy ===
/** `encodeURIComponent` over Unicode scalar values: characters outside the unreserved
    set are written as the percent-escaped bytes of their UTF-8 encoding, with upper-case
    hexadecimal digits. A decoder for the result shows that nothing is lost. */
module Uri {

  /** The characters `encodeURIComponent` leaves as they are. */
  predicate IsUnreserved(c: char) {
    || ('A' <= c <= 'Z') || ('a' <= c <= 'z') || ('0' <= c <= '9')
    || c == '-' || c == '_' || c == '.' || c == '!' || c == '~' || c == '*' || c == '\'' || c == '(' || c == ')'
  }

  /** A character that can appear in the output of `Encode`. */
  predicate IsEncodedChar(c: char) {
    IsUnreserved(c) || c == '%'
  }

  function HexDigit(n: nat): (c: char)
    requires n < 16
    ensures ('0' <= c <= '9') || ('A' <= c <= 'F')
  {
    if n < 10 then ('0' as int + n) as char else ('A' as int + n - 10) as char
  }

  /** Inverse of `HexDigit` on upper-case digits (anything else reads as 0). */
  function HexValue(c: char): (n: nat)
    ensures n < 16
  {
    if '0' <= c <= '9' then c as int - '0' as int
    else if 'A' <= c <= 'F' then c as int - 'A' as int + 10
    else 0
  }

  predicate IsByte(b: int) { 0 <= b < 256 }

  /** The UTF-8 encoding of one scalar value. */
  function Utf8(c: char): (bytes: seq<int>)
    ensures 1 <= |bytes| <= 4
    ensures forall k :: 0 <= k < |bytes| ==> IsByte(bytes[k])
    ensures |bytes| == 1 <==> c as int < 0x80
  {
    var n := c as int;
    if n < 0x80 then [n]
    else if n < 0x800 then [0xC0 + n / 64, 0x80 + n % 64]
    else if n < 0x10000 then [0xE0 + n / 4096, 0x80 + (n / 64) % 64, 0x80 + n % 64]
    else [0xF0 + n / 0x40000, 0x80 + (n / 4096) % 64, 0x80 + (n / 64) % 64, 0x80 + n % 64]
  }

  /** The UTF-8 encoding of a string. */
  function Utf8String(s: string): seq<int> {
    if s == [] then [] else Utf8(s[0]) + Utf8String(s[1..])
  }

  /** `%HH` for one byte. */
  function PercentByte(b: int): (r: string)
    requires IsByte(b)
    ensures |r| == 3 && r[0] == '%'
  {
    ['%', HexDigit(b / 16), HexDigit(b % 16)]
  }

  function PercentBytes(bytes: seq<int>): (r: string)
    requires forall k :: 0 <= k < |bytes| ==> IsByte(bytes[k])
    ensures forall k :: 0 <= k < |r| ==> IsEncodedChar(r[k])
  {
    if bytes == [] then [] else PercentByte(bytes[0]) + PercentBytes(bytes[1..])
  }

  function EncodeChar(c: char): (r: string)
    ensures forall k :: 0 <= k < |r| ==> IsEncodedChar(r[k])
  {
    if IsUnreserved(c) then [c] else PercentBytes(Utf8(c))
  }

  /** `encodeURIComponent(s)` */
  function Encode(s: string): (r: string)
    ensures forall k :: 0 <= k < |r| ==> IsEncodedChar(r[k])
    ensures (forall k :: 0 <= k < |s| ==> IsUnreserved(s[k])) ==> r == s
  {
    if s == [] then [] else EncodeChar(s[0]) + Encode(s[1..])
  }

  /** The output of `Encode` never holds a raw query delimiter, so it cannot end the
      parameter it is placed in or start a new one. */
  lemma EncodeHasNoDelimiters(s: string)
    ensures '&' !in Encode(s) && '=' !in Encode(s) && '?' !in Encode(s) && '#' !in Encode(s)
  {
    var r := Encode(s);
    forall k | 0 <= k < |r| ensures r[k] != '&' && r[k] != '=' && r[k] != '?' && r[k] != '#' {
      assert IsEncodedChar(r[k]);
    }
  }

  /** Percent-decoding to bytes: `%HH` is one byte, any other character its code. */
  function DecodeBytes(s: string): seq<int>
  {
    if s == [] then []
    else if s[0] == '%' && |s| >= 3 then [HexValue(s[1]) * 16 + HexValue(s[2])] + DecodeBytes(s[3..])
    else [s[0] as int] + DecodeBytes(s[1..])
  }

  lemma {:induction false} DecodePercentBytes(bytes: seq<int>, rest: string)
    requires forall k :: 0 <= k < |bytes| ==> IsByte(bytes[k])
    ensures DecodeBytes(PercentBytes(bytes) + rest) == bytes + DecodeBytes(rest)
  {
    if bytes != [] {
      var b := bytes[0];
      var t := PercentBytes(bytes[1..]) + rest;
      var u := PercentByte(b) + t;
      assert PercentBytes(bytes) + rest == u;
      assert u[0] == '%' && u[1] == HexDigit(b / 16) && u[2] == HexDigit(b % 16) && u[3..] == t;
      assert HexValue(HexDigit(b / 16)) * 16 + HexValue(HexDigit(b % 16)) == b;
      assert DecodeBytes(u) == [b] + DecodeBytes(t);
      DecodePercentBytes(bytes[1..], rest);
      calc {
        DecodeBytes(PercentBytes(bytes) + rest);
        DecodeBytes(u);
        [b] + DecodeBytes(t);
        [b] + (bytes[1..] + DecodeBytes(rest));
        { assert bytes == [b] + bytes[1..]; }
        bytes + DecodeBytes(rest);
      }
    } else {
      assert PercentBytes(bytes) + rest == rest;
    }
  }

  /** Percent-decoding the output of `Encode` yields exactly the UTF-8 bytes of the input:
      the encoding loses nothing. */
  lemma {:induction false} DecodeEncode(s: string)
    ensures DecodeBytes(Encode(s)) == Utf8String(s)
  {
    if s != [] {
      var c := s[0];
      DecodeEncode(s[1..]);
      if IsUnreserved(c) {
        assert Encode(s) == [c] + Encode(s[1..]);
        assert (([c] + Encode(s[1..]))[1..]) == Encode(s[1..]);
      } else {
        DecodePercentBytes(Utf8(c), Encode(s[1..]));
      }
    }
  }
}

=== FILE: use_artist.dfy ===
/** The `useArtist` hook: one fetch on mount of at most one artist row, with a fallback
    artist when the table is empty. */
module UseArtist {
  import opened Common
  import opened Records
  import opened Fetch

  /** The error text when the query yields neither rows nor an error: `data[0]` on `null`
      throws a TypeError whose message is this (V8's wording). */
  const NullRowsMessage := "Cannot read properties of null (reading '0')"

  const DefaultBio := "Український музичний продюсер та діджей, що створює унікальні електронні композиції з елементами поп та хіп-хоп музики."
  const DefaultImageUrl := "https://images.pexels.com/photos/1763075/pexels-photo-1763075.jpeg"
  const DefaultLinks := SocialLinks(Some("https://instagram.com/alexnova"), Some("https://twitter.com/alexnova"),
    Some("https://youtube.com/alexnova"), None)

  /** The fallback artist. Its name begins with the Cyrillic letter U+0410, not a Latin A. */
  function DefaultArtist(now: string): Artist {
    Artist("default", "АLEX NOVA", DefaultBio, DefaultImageUrl, "", "alexnova", DefaultLinks, now, now)
  }

  datatype ArtistState = ArtistState(artist: Option<Artist>, loading: bool, error: Option<string>)

  /** The hook's state after its single on-mount fetch (it starts with no artist, loading). */
  function FetchArtist(outcome: QueryOutcome<Artist>, now: string): (r: ArtistState)
    ensures !r.loading
    ensures r.artist.Some? <==> outcome.Rows? && outcome.data.Some?
    ensures r.error.Some? <==> r.artist.None?
    ensures outcome.QueryError? ==> r.error == Some(outcome.message)
    ensures outcome.QueryThrew? ==> r.error == Some(ThrownMessage(outcome.thrown))
    ensures outcome == Rows(None) ==> r.error == Some(NullRowsMessage)
    ensures outcome == Rows(Some([])) ==> r.artist == Some(DefaultArtist(now)) && r.artist.value.id == "default"
    ensures outcome.Rows? && outcome.data.Some? && |outcome.data.value| > 0 ==> r.artist == Some(outcome.data.value[0])
  {
    match outcome
    case QueryError(_, message) => ArtistState(None, false, Some(message))
    case QueryThrew(t) => ArtistState(None, false, Some(ThrownMessage(t)))
    case Rows(data) =>
      if data.Some? && |data.value| == 0 then ArtistState(Some(DefaultArtist(now)), false, None)
      else if data.None? then ArtistState(None, false, Some(NullRowsMessage))
      else ArtistState(Some(data.value[0]), false, None)
  }
}

=== FILE: use_blog.dfy ===
/** The `useBlog` hook: one fetch on mount of the published posts, newest first, with two
    mock posts when the table reports no rows. */
module UseBlog {
  import opened Common
  import opened Strings
  import opened Records
  import opened Fetch

  const MockContent1 := "Роботою над новим альбомом я займався понад рік. Це колекція треків, що відображають мою еволюцію як артиста."
  const MockExcerpt1 := "Роботою над новим альбомом я займався понад рік..."
  const MockImage1 := "https://images.pexels.com/photos/1190297/pexels-photo-1190297.jpeg"
  const MockContent2 := "Незабутній вечір з моїми фанами у столиці. Дякую всім, хто прийшов підтримати!"
  const MockExcerpt2 := "Незабутній вечір з моїми фанами..."
  const MockImage2 := "https://images.pexels.com/photos/1763075/pexels-photo-1763075.jpeg"

  /** The two posts shown when the table reports no rows. */
  function MockPosts(): seq<BlogPost> {
    [ BlogPost("1", "Новий альбом \"Digital Dreams\"", MockContent1, MockExcerpt1, Some(MockImage1),
        true, "2024-01-15T10:00:00Z", "2024-01-15T10:00:00Z"),
      BlogPost("2", "Концерт у Києві", MockContent2, MockExcerpt2, Some(MockImage2),
        true, "2024-01-10T18:00:00Z", "2024-01-10T18:00:00Z") ]
  }

  /** What the query selects: `published = true`. */
  predicate AllPublished(xs: seq<BlogPost>) {
    forall i :: 0 <= i < |xs| ==> xs[i].published
  }

  /** What the query orders by: `created_at` descending. */
  predicate NewestFirst(xs: seq<BlogPost>) {
    forall i :: 0 < i < |xs| ==> !LexLess(xs[i - 1].createdAt, xs[i].createdAt)
  }

  /** Both mock posts are published, as the query's filter requires. */
  lemma MockPostsPublished()
    ensures AllPublished(MockPosts())
  {
    var posts := MockPosts();
    assert |posts| == 2 && posts[0].published && posts[1].published;
  }

  /** The mock posts are strictly newest first, as the query's ordering requires. */
  lemma MockPostsNewestFirst()
    ensures NewestFirst(MockPosts())
    ensures LexLess(MockPosts()[1].createdAt, MockPosts()[0].createdAt)
  {
    var posts := MockPosts();
    var older, newer := posts[1].createdAt, posts[0].createdAt;
    assert older == "2024-01-10T18:00:00Z" && newer == "2024-01-15T10:00:00Z";
    assert older[..9] == newer[..9] && older[9] < newer[9];
    LexLessAt(older, newer, 9);
    NewestFirstPair(posts[0], posts[1]);
    assert posts == [posts[0], posts[1]];
  }

  lemma NewestFirstPair(a: BlogPost, b: BlogPost)
    requires LexLess(b.createdAt, a.createdAt)
    ensures NewestFirst([a, b])
  {
    LexLessAsymmetric(b.createdAt, a.createdAt);
  }

  /** The hook's state after its single on-mount fetch. */
  function FetchPosts(outcome: QueryOutcome<BlogPost>): (r: ListState<BlogPost>)
    ensures !r.loading
    ensures outcome.QueryError? && outcome.code == NotFound ==> r.items == MockPosts() && r.error.None?
    ensures outcome.QueryError? && outcome.code != NotFound ==> r.items == [] && r.error == Some(outcome.message)
    ensures outcome.QueryThrew? ==> r.items == [] && r.error == Some(ThrownMessage(outcome.thrown))
    ensures outcome.Rows? ==> r.items == RowsOrEmpty(outcome.data) && r.error.None?
  {
    FetchList(InitialList(), outcome, MockPosts())
  }
}

=== FILE: use_contact_info.dfy ===
/** The `useContactInfo` hook: the first `contact_info` row of section "main", a default
    record when the backend reports no rows, and an update that writes every "main" row and
    triggers a refetch. */
module UseContactInfo {
  import opened Common
  import opened Records
  import opened Fetch

  /** A row selection: `from(table).eq(column, value)`. */
  datatype RowFilter = RowFilter(table: string, column: string, value: string)

  /** The rows `fetchContactInfo` selects; it keeps at most `FetchLimit` of them. */
  const FetchFilter := RowFilter("contact_info", "section_type", "main")

  /** The fetch's `.limit(1)`. */
  const FetchLimit := 1

  /** The rows `updateContactInfo` writes. */
  const UpdateFilter := RowFilter("contact_info", "section_type", "main")

  predicate Selects(f: RowFilter, info: ContactInfo) {
    f.column == "section_type" && info.sectionType == f.value
  }

  /** The rows of a table a filter selects, in table order. */
  function Selected(f: RowFilter, rows: seq<ContactInfo>): (r: seq<ContactInfo>)
    ensures forall x :: x in r <==> x in rows && Selects(f, x)
    ensures |r| <= |rows|
  {
    if rows == [] then []
    else if Selects(f, rows[0]) then [rows[0]] + Selected(f, rows[1..])
    else Selected(f, rows[1..])
  }

  /** The rows the fetch's query returns from a table: the selected rows cut to the limit. */
  function FetchRows(rows: seq<ContactInfo>): (r: seq<ContactInfo>)
    ensures |r| <= FetchLimit
    ensures r == [] <==> Selected(FetchFilter, rows) == []
    ensures r != [] ==> r[0] == Selected(FetchFilter, rows)[0]
  {
    var s := Selected(FetchFilter, rows);
    if |s| <= FetchLimit then s else s[..FetchLimit]
  }

  const DefaultSubtitle := "Готовий до співпраці? Зв'яжіться зі мною для обговорення проектів"
  const DefaultLinks := SocialLinks(Some("https://instagram.com/alexnova"), Some("https://twitter.com/alexnova"),
    Some("https://youtube.com/alexnova"), None)

  /** The record the hook installs when the backend reports no rows. */
  function DefaultContactInfo(now: string): ContactInfo {
    ContactInfo("default", "main", "Контакти", DefaultSubtitle, "Зв'яжіться зі мною", "contact@alexnova.music",
      "+380 XX XXX XX XX", "Київ, Україна", "Соціальні мережі", DefaultLinks,
      "Надіслати повідомлення", "Надіслати повідомлення", now, now)
  }

  /** The update's filter is the fetch's filter; the fetch then keeps only the first row
      (`FetchRows`), while the update writes every selected row. The default record would
      match the filter (id "default", section "main", links for every platform but
      Facebook), but it is built by the hook and never stored, so no update writes it. */
  lemma FetchAndUpdateAgree(now: string)
    ensures UpdateFilter == FetchFilter
    ensures Selects(FetchFilter, DefaultContactInfo(now)) && DefaultContactInfo(now).id == "default"
    ensures forall p :: DefaultContactInfo(now).socialLinks.Get(p).Some? <==> p != Facebook
  {
  }

  datatype ContactInfoHook = ContactInfoHook(info: Option<ContactInfo>, loading: bool, error: Option<string>, refetch: nat)

  function InitialHook(): ContactInfoHook {
    ContactInfoHook(None, true, None, 0)
  }

  /** `fetchContactInfo`, run on mount and after every change of the refetch counter. */
  function FetchContactInfo(h: ContactInfoHook, outcome: QueryOutcome<ContactInfo>, now: string): (r: ContactInfoHook)
    ensures !r.loading && r.refetch == h.refetch
    ensures outcome.QueryError? && outcome.code == NotFound ==> r.info == Some(DefaultContactInfo(now)) && r.error == h.error
    ensures outcome.QueryError? && outcome.code != NotFound ==> r.info == h.info && r.error == Some(outcome.message)
    ensures outcome.QueryThrew? ==> r.info == h.info && r.error == Some(ThrownMessage(outcome.thrown))
    ensures outcome.Rows? ==>
      && r.error == h.error
      && (r.info.Some? <==> outcome.data.Some? && |outcome.data.value| > 0)
      && (r.info.Some? ==> r.info.value == outcome.data.value[0])
  {
    match outcome
    case Rows(data) =>
      var rows := RowsOrEmpty(data);
      h.(info := if |rows| > 0 then Some(rows[0]) else None, loading := false)
    case QueryError(code, message) =>
      if code == NotFound then h.(info := Some(DefaultContactInfo(now)), loading := false)
      else h.(error := Some(message), loading := false)
    case QueryThrew(t) => h.(error := Some(ThrownMessage(t)), loading := false)
  }

  /** `updateContactInfo`: true and one refetch on success, false and no refetch on error. */
  function UpdateContactInfo(h: ContactInfoHook, outcome: WriteOutcome<()>): (r: (bool, ContactInfoHook))
    ensures r.0 <==> outcome.Written?
    ensures r.0 ==> r.1 == h.(refetch := h.refetch + 1)
    ensures !r.0 ==> r.1 == h
  {
    var (result, n) := Mutate(h.refetch, outcome);
    (result.Succeeded?, h.(refetch := n))
  }

  /** Fetching from a table shows its first "main" row, and no record when it has none,
      however many "main" rows there are. */
  lemma FetchShowsFirstSelectedRow(h: ContactInfoHook, rows: seq<ContactInfo>, now: string)
    ensures var r := FetchContactInfo(h, Rows(Some(FetchRows(rows))), now);
      (r.info.Some? <==> exists i :: 0 <= i < |rows| && Selects(FetchFilter, rows[i]))
      && (r.info.Some? ==> r.info.value == Selected(FetchFilter, rows)[0])
  {
    var sel := Selected(FetchFilter, rows);
    var fr := FetchRows(rows);
    var r := FetchContactInfo(h, Rows(Some(fr)), now);
    assert r.info.Some? <==> fr != [];
    assert fr != [] ==> r.info.value == fr[0];
    if exists i :: 0 <= i < |rows| && Selects(FetchFilter, rows[i]) {
      var i :| 0 <= i < |rows| && Selects(FetchFilter, rows[i]);
      assert rows[i] in sel;
    }
    if sel != [] {
      assert sel[0] in rows;
    }
  }

  /** `refetchContactInfo` */
  function RefetchContactInfo(h: ContactInfoHook): (r: ContactInfoHook)
    ensures r.refetch == h.refetch + 1 && r.info == h.info && r.error == h.error && r.loading == h.loading
  {
    h.(refetch := h.refetch + 1)
  }
}

=== FILE: use_stats.dfy ===
/** The `useStats` hook: the site statistics list, its "no rows" defaults, a refetch
    counter, and the create/update/delete/reorder mutators. The backend's update is
    modelled by `ApplyUpdate`, its effect on the table rows. */
module UseStats {
  import opened Common
  import opened Records
  import opened Fetch

  /** The four statistics shown when the table reports no rows; `now` is the creation time. */
  function DefaultStats(now: string): seq<SiteStats> {
    [ SiteStats("1", "Треків", "50+", "music", 1, now, now),
      SiteStats("2", "Фанів", "100K+", "users", 2, now, now),
      SiteStats("3", "Рейтинг", "4.9", "star", 3, now, now),
      SiteStats("4", "Прослухувань", "2M+", "play", 4, now, now) ]
  }

  /** The order the query asks for: ascending `order_index`. */
  predicate SortedByOrder(xs: seq<SiteStats>) {
    forall i, j :: 0 <= i < j < |xs| ==> xs[i].orderIndex <= xs[j].orderIndex
  }

  /** The defaults number 1 to 4 in list order, so they already satisfy the ascending
      `order_index` ordering of the query they stand in for, and their ids are distinct. */
  lemma DefaultStatsOrdered(now: string)
    ensures |DefaultStats(now)| == 4
    ensures forall k :: 0 <= k < 4 ==> DefaultStats(now)[k].orderIndex == k + 1
    ensures forall k :: 0 <= k < 4 ==> DefaultStats(now)[k].id == ["1234"[k]]
    ensures SortedByOrder(DefaultStats(now))
    ensures forall i, j :: 0 <= i < j < 4 ==> DefaultStats(now)[i].id != DefaultStats(now)[j].id
  {
  }

  datatype StatsHook = StatsHook(list: ListState<SiteStats>, refetch: nat)

  function InitialHook(): StatsHook {
    StatsHook(InitialList(), 0)
  }

  /** `fetchStats`, run on mount and after every change of the refetch counter. */
  function FetchStats(h: StatsHook, outcome: QueryOutcome<SiteStats>, now: string): (r: StatsHook)
    ensures !r.list.loading && r.refetch == h.refetch
    ensures outcome.QueryError? && outcome.code == NotFound ==> r.list.items == DefaultStats(now) && r.list.error == h.list.error
    ensures outcome.QueryError? && outcome.code != NotFound ==> r.list.error == Some(outcome.message) && r.list.items == h.list.items
    ensures outcome.QueryThrew? ==> r.list.items == h.list.items && r.list.error == Some(ThrownMessage(outcome.thrown))
    ensures outcome.Rows? ==> r.list.items == outcome.data.GetOr([]) && r.list.error == h.list.error
  {
    h.(list := FetchList(h.list, outcome, DefaultStats(now)))
  }

  /** `refetchStats`: one more fetch is due; nothing else changes. */
  function RefetchStats(h: StatsHook): (r: StatsHook)
    ensures r.refetch == h.refetch + 1 && r.list == h.list
  {
    h.(refetch := h.refetch + 1)
  }

  /** The fields a new statistic is created with. */
  datatype NewStat = NewStat(caption: string, value: string, iconName: string, orderIndex: int)

  /** The columns an update sets; `None` leaves a column alone. */
  datatype StatPatch = StatPatch(caption: Option<string>, value: Option<string>, iconName: Option<string>, orderIndex: Option<int>)

  /** The write each mutator sends to `site_stats`. */
  datatype Write =
    | Insert(row: NewStat, createdAt: string, updatedAt: string)
    | Update(id: string, patch: StatPatch, updatedAt: string)
    | Remove(id: string)

  /** A mutator call: the write it issued, the result it returned, the hook afterwards. */
  datatype Call = Call(write: Write, result: MutationResult<Option<SiteStats>>, hook: StatsHook)

  function Settle(h: StatsHook, write: Write, outcome: WriteOutcome<Option<SiteStats>>): (c: Call)
    ensures c.write == write && c.hook.list == h.list
    ensures c.result.Succeeded? <==> outcome.Written?
    ensures c.result.Succeeded? ==> c.hook.refetch == h.refetch + 1
    ensures c.result.Failed? ==> c.hook.refetch == h.refetch && c.result.error == ThrownMessage(outcome.thrown)
  {
    var (result, n) := Mutate(h.refetch, outcome);
    Call(write, result, h.(refetch := n))
  }

  /** A write that returns no data. */
  function NoData(outcome: WriteOutcome<()>): WriteOutcome<Option<SiteStats>> {
    match outcome
    case Written(_) => Written(None)
    case WriteFailed(t) => WriteFailed(t)
  }

  /** `createStat`: inserts the row stamped with `now` and returns the created row. */
  function CreateStat(h: StatsHook, stat: NewStat, now: string, outcome: WriteOutcome<SiteStats>): (c: Call)
    ensures c.write == Insert(stat, now, now)
    ensures outcome.Written? ==> c.result == Succeeded(Some(outcome.data)) && c.hook.refetch == h.refetch + 1
    ensures outcome.WriteFailed? ==> c.result.Failed? && c.hook == h
  {
    var o := match outcome case Written(row) => Written(Some(row)) case WriteFailed(t) => WriteFailed(t);
    Settle(h, Insert(stat, now, now), o)
  }

  /** `updateStat`: sets the given columns of the row `id`. */
  function UpdateStat(h: StatsHook, id: string, patch: StatPatch, now: string, outcome: WriteOutcome<()>): (c: Call)
    ensures c.write == Update(id, patch, now)
    ensures outcome.Written? ==> c.result == Succeeded(None) && c.hook.refetch == h.refetch + 1
    ensures outcome.WriteFailed? ==> c.result.Failed? && c.hook == h
  {
    Settle(h, Update(id, patch, now), NoData(outcome))
  }

  /** `deleteStat` */
  function DeleteStat(h: StatsHook, id: string, outcome: WriteOutcome<()>): (c: Call)
    ensures c.write == Remove(id)
    ensures outcome.Written? ==> c.result == Succeeded(None) && c.hook.refetch == h.refetch + 1
    ensures outcome.WriteFailed? ==> c.result.Failed? && c.hook == h
  {
    Settle(h, Remove(id), NoData(outcome))
  }

  /** The patch `reorderStat` sends: only `order_index`. */
  function ReorderPatch(newOrderIndex: int): StatPatch {
    StatPatch(None, None, None, Some(newOrderIndex))
  }

  /** `reorderStat` */
  function ReorderStat(h: StatsHook, id: string, newOrderIndex: int, now: string, outcome: WriteOutcome<()>): (c: Call)
    ensures c.write == Update(id, ReorderPatch(newOrderIndex), now)
    ensures outcome.Written? ==> c.result == Succeeded(None) && c.hook.refetch == h.refetch + 1
    ensures outcome.WriteFailed? ==> c.result.Failed? && c.hook == h
  {
    Settle(h, Update(id, ReorderPatch(newOrderIndex), now), NoData(outcome))
  }

  /** One row after an update: the patched columns and `updated_at` change. */
  function PatchRow(row: SiteStats, patch: StatPatch, updatedAt: string): SiteStats {
    row.(caption := patch.caption.GetOr(row.caption), value := patch.value.GetOr(row.value),
         iconName := patch.iconName.GetOr(row.iconName), orderIndex := patch.orderIndex.GetOr(row.orderIndex),
         updatedAt := updatedAt)
  }

  /** The effect of `update(...).eq('id', id)` on the table. */
  function ApplyUpdate(rows: seq<SiteStats>, id: string, patch: StatPatch, updatedAt: string): (r: seq<SiteStats>)
    ensures |r| == |rows|
    ensures forall i :: 0 <= i < |rows| && rows[i].id != id ==> r[i] == rows[i]
    ensures forall i :: 0 <= i < |rows| ==> r[i].id == rows[i].id && r[i].createdAt == rows[i].createdAt
  {
    seq(|rows|, i requires 0 <= i < |rows| => if rows[i].id == id then PatchRow(rows[i], patch, updatedAt) else rows[i])
  }

  /** A reorder changes the `order_index` (and `updated_at`) of the rows with that id and
      nothing else in the table. */
  lemma ReorderChangesOnlyOrder(rows: seq<SiteStats>, id: string, newOrderIndex: int, now: string)
    ensures var r := ApplyUpdate(rows, id, ReorderPatch(newOrderIndex), now);
      forall i :: 0 <= i < |rows| ==>
        r[i] == (if rows[i].id == id then rows[i].(orderIndex := newOrderIndex, updatedAt := now) else rows[i])
  {
  }
}

=== FILE: use_tracks.dfy ===
/** The `useTracks` hook: one fetch on mount, ordered by `order_index`, with two mock
    tracks when the table reports no rows. */
module UseTracks {
  import opened Records
  import opened Fetch

  /** The mock tracks' URLs, written as scheme, host and path. */
  const MockUrl1 := "https://" + "soundcloud.com/" + "example/midnight-dreams"
  const MockCover1 := "https://images.pexels.com/photos/1190297/pexels-photo-1190297.jpeg"
  const MockDescription1 := "Атмосферний трек з глибокими басами"
  const MockUrl2 := "https://" + "soundcloud.com/" + "example/electric-pulse"
  const MockCover2 := "https://images.pexels.com/photos/1763075/pexels-photo-1763075.jpeg"
  const MockDescription2 := "Енергійна композиція з електронними битами"

  /** The two tracks shown when the table reports no rows. */
  function MockTracks(): seq<Track> {
    [ Track("1", "Midnight Dreams", MockUrl1, "123456789", Common.Some(MockCover1),
        Common.Some(MockDescription1), 1, Common.None),
      Track("2", "Electric Pulse", MockUrl2, "987654321", Common.Some(MockCover2),
        Common.Some(MockDescription2), 2, Common.None) ]
  }

  predicate SortedByOrder(xs: seq<Track>) {
    forall i, j :: 0 <= i < j < |xs| ==> xs[i].orderIndex <= xs[j].orderIndex
  }

  /** The mock tracks carry `order_index` 1 and 2 in list order, as the ascending query
      they stand in for would return them. */
  lemma MockTracksOrdered()
    ensures |MockTracks()| == 2
    ensures MockTracks()[0].orderIndex == 1 && MockTracks()[1].orderIndex == 2
    ensures SortedByOrder(MockTracks())
  {
  }

  /** The hook's state after its single on-mount fetch. */
  function FetchTracks(outcome: QueryOutcome<Track>): (r: ListState<Track>)
    ensures !r.loading
    ensures outcome.QueryError? && outcome.code == NotFound ==> r.items == MockTracks() && r.error.None?
    ensures outcome.QueryError? && outcome.code != NotFound ==> r.items == [] && r.error == Common.Some(outcome.message)
    ensures outcome.QueryThrew? ==> r.items == [] && r.error == Common.Some(ThrownMessage(outcome.thrown))
    ensures outcome.Rows? ==> r.items == RowsOrEmpty(outcome.data) && r.error.None?
  {
    FetchList(InitialList(), outcome, MockTracks())
  }
}
